=== FILE: README.md ===
# lack-openai core in Dafny

This project models the deterministic core of the lack-openai PHP library. The library is a thin client for a streamed chat-completion API with function calling. The network, the file cache and the loggers are left out. What remains is modelled as pure functions over strings, sequences and maps:

- **Streamed-delta accumulator** (`StreamResponse`, `OpenAiStreamResponse`). Folds the deltas of one streamed completion into one assistant message.
- **Chat history** (`ChatRequest`). The append-only `messages` list and the `functions` list of the request body.
- **Client** (`OpenAiClient`, `LackOpenAiClient`):
  - the function registry;
  - the argument resolution of `runFucntion`;
  - the `functions.` prefix strip;
  - the 250-character streaming throttle;
  - `textComplete`: the cache short-circuit, one provider cycle, the function-call dispatch with its error turn, and the single follow-up completion.
- **Function definitions** (`FunctionDefinitions`, `FunctionDefinitionGenerator`). The definition advertised for a callback, built from explicit parameter records that replace reflection and attributes.
- **Prompt templates** (`JobTemplates`, `JobTemplate`):
  - sections split on `"\n---\n"`;
  - `{{key}}` placeholders filled in one left-to-right pass, from the data, else from a loader, else an exception.
- **Response cleaning** (`Responses`, `LackOpenAiResponse`). Trimming and stripping of surrounding triple quotes, code fences and line-edge quotes.
- **Job descriptions** (`JobDescriptions`, `JobDescription`). Tagged context and input blocks followed by rules.
- **JSON schemas** (`JsonSchema`, `JsonSchemaGenerator`):
  - the type-name table;
  - `parseType` on `[]` and `|` type strings, with a class-exists predicate instead of autoloading;
  - the doc-comment description filter;
  - the `@type`/`@var` tag;
  - the per-property schema of a class, from explicit property records.

Shared pieces live in `Base` (`Option`, `Result`, the thrown exception kinds), `Strings` (PHP's `str_contains`, `explode`, `implode`, `str_replace`, `trim`, truthiness and a subsequence relation) and `Json` (decoded JSON values).

The client's collaborators are parameters of `OpenAiClient.Env`:

- the cache key (`json_encode([$request, $question])`);
- the provider (the streamed deltas returned for a request);
- `json_decode` and `json_encode`;
- the callback invocation;
- `uniqid`.

The cache is a map from key to text. The streamer is a flag. The texts handed to it are recorded in order.

`textComplete` recurses through its follow-up completion, and this recursion can be arbitrarily deep. The model bounds it with a `fuel` counter. A run that exhausts it ends with the `TooDeep` reply, which the source has no counterpart for.

## Model

| member | source | states |
|---|---|---|
| StreamResponse.Initial | src/Helper/OpenAiStreamResponse.php:8-15 | The fresh accumulator has role and content entries with empty content, empty function name and arguments, and is not a function call. |
| StreamResponse.Step | src/Helper/OpenAiStreamResponse.php:17-35 | A delta with `function_call` appends each sub-field onto the matching function-call field and changes nothing else. Any other delta never touches `role`, appends to existing keys and inserts new keys as they are. Every field only grows. |
| StreamResponse.Accumulate | src/Helper/OpenAiStreamResponse.php:17-35 | Folding any delta sequence from the initial state keeps the role, content and function-call entries present. |
| StreamResponse.DecodedArguments | src/Helper/OpenAiStreamResponse.php:41-43 | The `array` return type fails exactly for a scalar, raising a `TypeError` that names its PHP type. An object gives its members. Null, invalid JSON and a list give no named arguments. |
| StreamResponse.FunctionArguments | src/Helper/OpenAiStreamResponse.php:41-43 | `getFunctionArguments`: the accumulated argument text decoded, with the `DecodedArguments` outcomes. |
| StreamResponse.AccumulatedContent | src/Helper/OpenAiStreamResponse.php:17-35 | After any delta sequence, content is the in-order concatenation of the content fragments of the deltas without a function call. |
| StreamResponse.AccumulatedCall | src/Helper/OpenAiStreamResponse.php:17-24 | The function name and arguments are the in-order concatenations of the fragments the function-call deltas carried. |
| StreamResponse.FunctionName | src/Helper/OpenAiStreamResponse.php:45-47 | `getFunctionName`: the accumulated name; `AccumulatedCall` states what it holds. |
| StreamResponse.CallOfEmpty | src/Helper/OpenAiStreamResponse.php:17-24 | A concatenation of fragments is empty exactly when every fragment is empty. |
| StreamResponse.IsFunctionCall | src/Helper/OpenAiStreamResponse.php:37-39 | `isFunctionCall`; `FunctionCallIff` states when it holds. |
| StreamResponse.FunctionCallIff | src/Helper/OpenAiStreamResponse.php:37-39 | The stream is a function call exactly when some delta carried a non-empty name fragment. |
| StreamResponse.AccumulateGrows | src/Helper/OpenAiStreamResponse.php:17-35 | Feeding more deltas only extends content, name and arguments (each old value is a prefix of the new one). |
| StreamResponse.StaysFunctionCall | src/Helper/OpenAiStreamResponse.php:37-39 | Once the accumulator is a function call it stays one, whatever deltas follow. |
| ChatRequest.Reset | src/Helper/ChatRequest.php:27-35 | The history becomes exactly one system message when the message is truthy (not null, "" or "0") and empty otherwise. Model and functions are kept. |
| ChatRequest.New | src/Helper/ChatRequest.php:8-18 | A new request has model gpt-3.5-turbo-16k, no functions, and the history `reset` gives. |
| ChatRequest.AddFunctionDefinition | src/Helper/ChatRequest.php:37-39 | Exactly one definition is appended. The history and the model are unchanged. |
| ChatRequest.AddUserContent | src/Helper/ChatRequest.php:41-46 | Exactly one user message with the content is appended, and every earlier message is unchanged. |
| ChatRequest.ResponseMessage | src/Helper/ChatRequest.php:48-53 | The stored message carries all accumulated entries. It carries `function_call` exactly when the accumulated name is non-empty. |
| ChatRequest.AddResponse | src/Helper/ChatRequest.php:48-53 | Exactly that assistant message is appended, and every earlier message and the function list are unchanged. |
| ChatRequest.AddFunctionResult | src/Helper/ChatRequest.php:55-61 | Exactly one function message is appended, with the given name and the encoded result as content. |
| FunctionDefinitions.ParamNames | src/Helper/FunctionDefinitionGenerator.php:34-36 | One name per declared parameter, in declaration order. |
| FunctionDefinitions.RequiredNames | src/Helper/FunctionDefinitionGenerator.php:40-42 | A name is required exactly when some non-optional parameter has it, and the required list keeps declaration order. |
| FunctionDefinitions.Generate | src/Helper/FunctionDefinitionGenerator.php:21-50 | The name is the AiFunction name if set, else the function's. The description is the AiFunction description, else the doc comment or "". The parameters type is "object". There is one property per parameter, with the AiParam type or "string" and the AiParam description or "". `required` holds the non-optional names in order. No parameters give the empty-object marker. |
| OpenAiClient.Create | src/LackOpenAiClient.php:21-32 | A new client (built with an explicit logger) has the default model, no history, no definitions and an empty registry. |
| OpenAiClient.Reset | src/LackOpenAiClient.php:55-57 | Only the history is reset. The temperature and model arguments are dropped, so the model never changes. |
| OpenAiClient.AddFunction | src/LackOpenAiClient.php:74-86 | The generated definition is appended and the registry entry under its name is replaced. The history is untouched. |
| OpenAiClient.NamesOfSnoc | src/LackOpenAiClient.php:80-85 | One more registration adds exactly its name to the set of registered names. |
| OpenAiClient.RegisteredNames | src/LackOpenAiClient.php:80-85 | After registering n callbacks the definition list grows by n, while the registry keys are exactly the old keys plus the registered names. |
| OpenAiClient.LastRegistrationWins | src/LackOpenAiClient.php:83-85 | Every registered name maps to the last callback registered under it. |
| OpenAiClient.ResolveArguments | src/LackOpenAiClient.php:113-124 | Resolution succeeds exactly when every parameter is supplied non-null or is optional with a default. On success there is one value per parameter, the supplied one or the default. On failure the error belongs to the first unresolvable parameter: an optional one without a default (a variadic) raises the `ReflectionException` of `getDefaultValue`, any other one "Missing required parameter". |
| OpenAiClient.RunFunction | src/LackOpenAiClient.php:100-127 | An unregistered name throws `InvalidArgumentException` "Undefined function". A failed resolution throws its exception. Only a complete argument list reaches the callback. |
| OpenAiClient.StripPrefix | src/LackOpenAiClient.php:189-191 | A name starting with "functions." loses exactly that prefix once. Any other name is unchanged. |
| OpenAiClient.FeedThrottled | src/LackOpenAiClient.php:169-181 | One loop iteration applies `addData` and keeps the throttle's guarantees. Flushes only happen when streaming. Each flushed text is a prefix of the content. Each flush is more than 250 characters longer than the previous one. |
| OpenAiClient.Consume | src/LackOpenAiClient.php:167-181 | The loop over any delta sequence accumulates exactly `Accumulate` and keeps the throttle's guarantees. |
| OpenAiClient.ConsumeStream | src/LackOpenAiClient.php:167-181 | The loop as a method returns the accumulated response and the in-stream flushes. There are none without a streamer. Each flush is a prefix of the content and more than 250 characters longer than the previous one. |
| OpenAiClient.ErrorText | src/LackOpenAiClient.php:199-201 | The error turn's text starts with "Error: " followed by the exception message. |
| OpenAiClient.Dispatch | src/LackOpenAiClient.php:192-196 | Arguments that fail to decode to an array throw their `TypeError`. Otherwise an unregistered name throws the "Undefined function" `InvalidArgumentException`. The callback returns only for decoded arguments, a registered name and a complete resolution. |
| OpenAiClient.UndefinedFunctionTurn | src/LackOpenAiClient.php:196-201 | An unregistered name with decodable arguments does not escape: the undefined-function exception is caught into an error turn. |
| OpenAiClient.MissingDefaultEscapes | src/LackOpenAiClient.php:113-124 | An unsupplied variadic parameter, after resolvable ones, raises the `ReflectionException`, which the `InvalidArgumentException` catch does not take, so it propagates out of the function-call branch. |
| OpenAiClient.ScalarArgumentsRaise | src/LackOpenAiClient.php:192-196 | Arguments decoding to a scalar raise their `TypeError` before the `try`, so it propagates out of the function-call branch. |
| OpenAiClient.HandleFunctionCall | src/LackOpenAiClient.php:187-202 | Unless a non-argument exception propagates, exactly one function-result turn under the called name is appended, and nothing else changes. |
| OpenAiClient.FunctionResultTurn | src/LackOpenAiClient.php:195-202 | A returned value is encoded into the turn. An `InvalidArgumentException`, including an undefined function, becomes a turn starting "Error: ". Any other exception propagates. |
| OpenAiClient.Asked | src/LackOpenAiClient.php:147-149 | A truthy question is appended as one user turn. Otherwise the request is unchanged. |
| OpenAiClient.FirstCycle | src/LackOpenAiClient.php:159-181 | The accumulated response of the cycle is well formed. |
| OpenAiClient.RunCycle | src/LackOpenAiClient.php:147-185 | One cycle appends the question (when truthy) and then the response message to the history. It keeps the registry, definitions and model. It flushes nothing without a streamer. |
| OpenAiClient.CycleThrottled | src/LackOpenAiClient.php:167-181 | Without a streamer nothing is flushed. Each flush is a prefix of the content. The first is longer than 250 characters and each later one is more than 250 longer than the one before. When streaming, at most 250 characters are left unflushed. |
| OpenAiClient.TextComplete | src/LackOpenAiClient.php:131-212 | Whatever the outcome, the history only grows and the cache only gains entries. Nothing is streamed without a streamer. |
| OpenAiClient.AfterFunctionCall | src/LackOpenAiClient.php:187-211 | After a function call the history only grows from the answered state, the cache only gains entries, and nothing is streamed without a streamer. |
| OpenAiClient.CacheHit | src/LackOpenAiClient.php:135-145 | On a hit the cached text is returned and streamed once. The history and the cache are unchanged, and no user turn is appended. |
| OpenAiClient.CacheMiss | src/LackOpenAiClient.php:135-211 | On a miss the question and the response are the first turns appended, and the in-stream flushes precede the final one. Without a function call they are the only turns, and the content is cached and returned. |
| OpenAiClient.AfterText | src/LackOpenAiClient.php:204-211 | After a function call, any text reply is the first cycle's content, cached under the key and streamed last. |
| OpenAiClient.FirstContentReturned | src/LackOpenAiClient.php:204-211 | Whenever a completion ends with text, the text is the first cycle's content and not the follow-up's. That content is what is cached and what is streamed last. |
| OpenAiClient.AfterReturned | src/LackOpenAiClient.php:196-204 | After a callback returned, the follow-up runs on the history extended by exactly the encoded result turn. |
| OpenAiClient.PlainFollowUp | src/LackOpenAiClient.php:147-185 | A follow-up with no question that misses the cache and gets no function call appends exactly one assistant turn. |
| OpenAiClient.RoundHandled | src/LackOpenAiClient.php:147-198 | When the callback returns, the history before the follow-up is the old history plus the question, the function-call message and the encoded result, in that order. |
| OpenAiClient.FunctionCallRound | src/LackOpenAiClient.php:187-211 | A function-call round ends in the follow-up's history. A text follow-up makes the round reply with the first cycle's content. |
| OpenAiClient.FunctionCallRoundTurns | src/LackOpenAiClient.php:131-211 | End to end: question, function call, result and follow-up reply are appended in that order, and the reply is the first cycle's content. |
| JobTemplates.LoadTemplate | src/Helper/JobTemplate.php:19-25 | There are at least two sections. Without a separator they are "" and the whole content. Otherwise they are the `explode` pieces, and joining them restores the content. |
| JobTemplates.New | src/Helper/JobTemplate.php:13-17 | A new template has its sections loaded, no data and no loader. |
| JobTemplates.SetData | src/Helper/JobTemplate.php:27-29 | The data is replaced and nothing else changes. |
| JobTemplates.SetDataLoader | src/Helper/JobTemplate.php:31-33 | The loader is set and nothing else changes. |
| JobTemplates.KeyRun | src/Helper/JobTemplate.php:45 | The key run is the maximal run of `[a-zA-Z0-9_]` characters. |
| JobTemplates.PlaceholderAt | src/Helper/JobTemplate.php:45 | A match starting at i ends past i+4 and within the text, and carries a non-empty key of word characters. |
| JobTemplates.PlaceholderText | src/Helper/JobTemplate.php:45 | A match covers exactly `{{`, its key and `}}`, and the key is the maximal word run after `{{`. |
| JobTemplates.KeyRunOf | src/Helper/JobTemplate.php:45 | A run of word characters ended by a non-word character or the end of the text is the run the regex takes. |
| JobTemplates.PlaceholderFound | src/Helper/JobTemplate.php:45 | Wherever the text holds `{{key}}` with a valid key, the regex matches there with exactly that key. |
| JobTemplates.MatchFound | src/Helper/JobTemplate.php:45 | A text beginning with `{{key}}` for a valid key matches at its start with exactly that key. |
| JobTemplates.PlaceholderPrefix | src/Helper/JobTemplate.php:45 | A match that lies inside a prefix is unaffected by what follows the prefix. |
| JobTemplates.PlaceholderDrop | src/Helper/JobTemplate.php:45 | Matching is positional: dropping a prefix shifts every match by its length. |
| JobTemplates.Resolve | src/Helper/JobTemplate.php:46-53 | A key resolves exactly when it is set non-null in the data or a loader exists. The data value wins, then the loader's answer. Otherwise there is an `InvalidArgumentException` naming key, section and file. |
| JobTemplates.ParseFromOk | src/Helper/JobTemplate.php:43-56 | Rendering succeeds exactly when every found key is supplied. Otherwise it fails with the exception for the first unsupplied key. |
| JobTemplates.NoPlaceholdersUnchanged | src/Helper/JobTemplate.php:45 | Text in which the regex finds no placeholder comes back unchanged. |
| JobTemplates.ParseFromDrop | src/Helper/JobTemplate.php:45-54 | Rendering from an index only depends on the text from that index on. |
| JobTemplates.PlainPrefix | src/Helper/JobTemplate.php:45-54 | A stretch without placeholders is copied unchanged in front of whatever the rest renders to. |
| JobTemplates.Splice | src/Helper/JobTemplate.php:45-54 | For a placeholder-free prefix a, `a{{k}}b` renders as a, then the resolved value of k, then the rendering of b. A failing resolution fails the whole render, and otherwise b's failure is the render's. The value is never rescanned. |
| JobTemplates.ParseFrom | src/Helper/JobTemplate.php:43-56 | The left-to-right `preg_replace_callback` pass from an index; `ParseFromOk`, `NoPlaceholdersUnchanged` and `Splice` state what it computes. |
| JobTemplates.ParseSection | src/Helper/JobTemplate.php:43-56 | `_parseSection`: the pass over the whole section. |
| JobTemplates.GetSystemContent | src/Helper/JobTemplate.php:58-60 | The system content is section 0 rendered under the name "system". |
| JobTemplates.GetUserContent | src/Helper/JobTemplate.php:63-65 | User content i is section 1+i rendered under the name "user.i". A missing section fails with a type error. |
| JobTemplates.LoadedSectionsExist | src/Helper/JobTemplate.php:19-25 | After loading, the system content and user content 0 both exist. Each fails only for an unsupplied key. |
| JobTemplates.SinglePass | src/Helper/JobTemplate.php:45-54 | Example of `Splice`: substituted values are not rescanned, so data a ↦ "{{b}}" renders "x{{a}}y" as "x{{b}}y". |
| JobTemplates.MissingKeyReported | src/Helper/JobTemplate.php:47-53 | Example: a key whose data entry is null and which has no loader raises the not-found exception with its section. |
| Responses.AccessorsAgree | src/LackOpenAiResponse.php:12-14 | `getResponse` and `__toString` both return the raw text. |
| Responses.StripStart | src/LackOpenAiResponse.php:24 | One leading occurrence of the pattern is removed, if there is one. |
| Responses.StripEnd | src/LackOpenAiResponse.php:25 | One trailing occurrence of the pattern is removed, at the very end or before a final line feed. |
| Responses.LowerRun | src/LackOpenAiResponse.php:28 | The language tag is the maximal run of lower-case letters. |
| Responses.StripOpeningFence | src/LackOpenAiResponse.php:28 | An opening fence plus its lower-case tag is removed, and nothing else. |
| Responses.LineStartSubseq | src/LackOpenAiResponse.php:32 | The line-start pass only deletes characters. |
| Responses.LineEndSubseq | src/LackOpenAiResponse.php:33 | The line-end pass only deletes characters. |
| Responses.Clean | src/LackOpenAiResponse.php:21-36 | Cleaning only deletes characters, so the result is a subsequence of the input and never longer. |
| Responses.TrimIsSlice | src/LackOpenAiResponse.php:22 | Trimming keeps a contiguous slice `s[i..j]` of the text, hence a subsequence. |
| Responses.TrimUnchanged | src/LackOpenAiResponse.php:22 | Text without surrounding whitespace is not changed by trimming. |
| Responses.QuoteFree | src/LackOpenAiResponse.php:32-33 | The quote passes leave text without quotes unchanged. |
| Responses.CleanUnchanged | src/LackOpenAiResponse.php:21-36 | Text with no surrounding whitespace, no `"` and no backtick is returned unchanged. |
| Responses.DropLeadingEach | src/LackOpenAiResponse.php:32 | One output line per input line. |
| Responses.DropTrailingEach | src/LackOpenAiResponse.php:33 | One output line per input line. |
| Responses.LineStartAppend | src/LackOpenAiResponse.php:32 | The line-start pass distributes over concatenation, carrying whether the next character starts a line. |
| Responses.LineStartOneLine | src/LackOpenAiResponse.php:32 | Within one line, only a leading quote at a line start is removed. |
| Responses.LineEndAppend | src/LackOpenAiResponse.php:33 | The line-end pass distributes over a split at a line feed. |
| Responses.LineEndOneLine | src/LackOpenAiResponse.php:33 | Within one line, only a trailing quote is removed. |
| Responses.LineStartStep | src/LackOpenAiResponse.php:32 | A first line, its line feed and the rest: the line loses one leading quote and the rest starts a new line. |
| Responses.LineEndStep | src/LackOpenAiResponse.php:33 | A first line, its line feed and the rest: the line loses one trailing quote. |
| Responses.SplitFirstLine | src/LackOpenAiResponse.php:32-33 | `explode` at the first line feed gives the first line and the pieces of the rest. |
| Responses.SplitOneLine | src/LackOpenAiResponse.php:32-33 | A text without line feeds is a single line. |
| Responses.LineStartByLines | src/LackOpenAiResponse.php:32 | The `/^"/m` pass equals: split into lines, drop one leading quote from each, and join. |
| Responses.LineEndByLines | src/LackOpenAiResponse.php:33 | The `/"$/m` pass equals: split into lines, drop one trailing quote from each, and join. |
| Responses.QuotedAnswer | src/LackOpenAiResponse.php:21-36 | Example: the answer `"hi"` (with its quotes) cleans to `hi`. |
| Responses.QuotedAnswerLines | src/LackOpenAiResponse.php:32-33 | Example: the two line passes alone turn `"hi"` into `hi`. |
| JobDescriptions.New | src/Helper/JobDescription.php:7-8 | A fresh description has empty data and rules. |
| JobDescriptions.AddBlock | src/Helper/JobDescription.php:10-16 | `addContext` and `addInput` append exactly one block (line feed, opening tag, line feed, text, line feed, closing tag, line feed) to the data, 9 characters plus the text and twice the tag long. The rules are unchanged. |
| JobDescriptions.AddContext | src/Helper/JobDescription.php:10-12 | `addContext` appends one `CONTEXT` block to the data and keeps the rules. |
| JobDescriptions.AddInput | src/Helper/JobDescription.php:14-16 | `addInput` appends one `INPUT` block to the data and keeps the rules. |
| JobDescriptions.AddRule | src/Helper/JobDescription.php:18-20 | The rule is appended with no separator. The data is unchanged. |
| JobDescriptions.Render | src/Helper/JobDescription.php:22-24 | The prompt is the data, then one line feed, then the rules, each recoverable from its position. |
| JobDescriptions.BuildRenders | src/Helper/JobDescription.php:10-24 | For any interleaving of calls, the rendering is every block in call order, one line feed, then every rule in call order. |
| JobDescriptions.FreshRender | src/Helper/JobDescription.php:22-24 | A fresh description renders as a single line feed. |
| JobDescriptions.RuleCommutes | src/Helper/JobDescription.php:22-24 | Adding a rule before or after a context block gives the same prompt. |
| JsonSchema.MapType | src/Helper/JsonSchemaGenerator.php:68-81 | The result is always one of the seven JSON types, and an unknown type name gives "string". |
| JsonSchema.MapTypeTable | src/Helper/JsonSchemaGenerator.php:70-80 | int→integer, bool→boolean, float→number. string, array, object and null map to themselves. Other names give string. |
| JsonSchema.MapTypeFixedPoints | src/Helper/JsonSchemaGenerator.php:68-81 | A name maps to itself exactly when it is string, array, object or null. |
| JsonSchema.FullClassName | src/Helper/JsonSchemaGenerator.php:54-66 | The result is the type itself or the type inside the namespace. An existing global class wins. The result is a class exactly when either candidate is. |
| JsonSchema.ParseType | src/Helper/JsonSchemaGenerator.php:31-52 | The result is an array exactly when the type contains "[]". It is a union exactly when there is no "[]" and there is a "\|", with one option per part. Nested schemas have an empty description. A plain type is the class schema when the class exists, else the described mapped type. |
| JsonSchema.ParseTypeOptions | src/Helper/JsonSchemaGenerator.php:39-41 | Union options are the parts parsed one by one, in order. |
| JsonSchema.ParseTypeItems | src/Helper/JsonSchemaGenerator.php:35-38 | With "[]", the items are the type with every "[]" removed, parsed with an empty description. |
| JsonSchema.PlainDepth | src/Helper/JsonSchemaGenerator.php:35-48 | Without "[]" the schema has depth at most 2, because union parts contain neither "[]" nor "\|". |
| JsonSchema.ArrayDepth | src/Helper/JsonSchemaGenerator.php:35-38 | With "[]", the depth is at most 3 when removing every "[]" leaves none. |
| JsonSchema.ArraysCollapse | src/Helper/JsonSchemaGenerator.php:35-38 | Example: "int[][]" is an array of integer, not an array of arrays. |
| JsonSchema.PlainInt | src/Helper/JsonSchemaGenerator.php:43-48 | Example: "int" with no such class is the integer type. |
| JsonSchema.BracketsRemoved | src/Helper/JsonSchemaGenerator.php:37 | Example: removing "[]" from "int[][]" gives "int". |
| JsonSchema.StripMarkers | src/Helper/JsonSchemaGenerator.php:87 | Removing the comment markers never lengthens the text and leaves marker-free text unchanged. |
| JsonSchema.StripLine | src/Helper/JsonSchemaGenerator.php:95 | Stripping a line never lengthens it. |
| JsonSchema.StripLines | src/Helper/JsonSchemaGenerator.php:95 | Each kept line is stripped, in order. |
| JsonSchema.ExtractDescription | src/Helper/JsonSchemaGenerator.php:83-96 | The description neither starts nor ends with whitespace. |
| JsonSchema.KeptLines | src/Helper/JsonSchemaGenerator.php:86-92 | The two filters keep exactly the lines whose trimmed text starts with `*` and that carry no `@word` tag, each as often as it occurs, in their original order. |
| JsonSchema.CommentLinesKeep | src/Helper/JsonSchemaGenerator.php:86-89 | The first filter keeps exactly the lines starting with `*` after trimming, each as often as it occurs, in order. |
| JsonSchema.UntaggedLinesKeep | src/Helper/JsonSchemaGenerator.php:92 | The second filter keeps exactly the lines without an `@word` tag, each as often as it occurs, in order. |
| JsonSchema.CommentLineIff | src/Helper/JsonSchemaGenerator.php:88 | The truthiness test adds nothing: a line is kept exactly when its trimmed text starts with `*`. |
| JsonSchema.OneLineDocIsEmpty | src/Helper/JsonSchemaGenerator.php:83-96 | A one-line comment such as `/** text */` whose text does not start with `*` has an empty description. |
| JsonSchema.SpaceRun | src/Helper/JsonSchemaGenerator.php:20 | The `\s+` run is the maximal run of regex blanks. |
| JsonSchema.TokenRun | src/Helper/JsonSchemaGenerator.php:20 | The `[^\s]+` run is the maximal run of non-blanks. |
| JsonSchema.TagEnd | src/Helper/JsonSchemaGenerator.php:20 | A tag starts at an index exactly when `@type` or `@var` occurs there. |
| JsonSchema.TypeTagAt | src/Helper/JsonSchemaGenerator.php:20 | A match yields a non-empty type without blanks, and only where a tag starts. |
| JsonSchema.FindTypeTag | src/Helper/JsonSchemaGenerator.php:20 | The search finds the leftmost matching index, and no index before it matches. |
| JsonSchema.DocType | src/Helper/JsonSchemaGenerator.php:20-22 | The type is non-empty and free of blanks. Without any tag it is "string". |
| JsonSchema.FirstTypeTag | src/Helper/JsonSchemaGenerator.php:20-22 | The type is the one named by the leftmost matching tag. |
| JsonSchema.VarTag | src/Helper/JsonSchemaGenerator.php:20-22 | Example: `@var int` names the type int. |
| JsonSchema.PropertySchema | src/Helper/JsonSchemaGenerator.php:18-25 | A property's schema carries the doc comment's description (unless it is a class schema) and the mapped tag type. |
| JsonSchema.UntypedProperty | src/Helper/JsonSchemaGenerator.php:20-25 | A property without a type tag is a described string, unless a class named string exists. |
| JsonSchema.PropertyNamesSnoc | src/Helper/JsonSchemaGenerator.php:17-26 | One more property adds exactly its name. |
| JsonSchema.PropertyKeys | src/Helper/JsonSchemaGenerator.php:17-26 | The properties map has exactly the property names as keys. |
| JsonSchema.PropertyEntries | src/Helper/JsonSchemaGenerator.php:25 | Each property's entry is its own schema. For repeated names, the later property's schema wins. |
| JsonSchema.ConvertToJsonSchema | src/Helper/JsonSchemaGenerator.php:7-29 | The class schema is titled with the class name and has one entry per property name. |
| JsonSchema.ClassProperties | src/Helper/JsonSchemaGenerator.php:17-26 | Each property name maps to the schema built from the doc comment of the last property with that name: its description and its tag type. |
| Strings.FindFrom | src/Helper/JobTemplate.php:22 | The first occurrence at or after the start index, or none. |
| Strings.Find | src/Helper/JobTemplate.php:22 | No result exactly when the pattern does not occur; otherwise the first occurrence. |
| Strings.Split | src/Helper/JobTemplate.php:22 | The `explode` pieces join back to the text and none holds the separator. There is one piece exactly when the separator does not occur, and with more pieces each is shorter than the text. |
| Strings.RemoveAll | src/Helper/JsonSchemaGenerator.php:37 | `str_replace` with an empty replacement never lengthens, strictly shortens when the pattern occurs, and is the identity otherwise. |
| Strings.TrimLeft | src/Helper/JsonSchemaGenerator.php:95 | `ltrim` drops exactly the longest prefix of the character set. |
| Strings.TrimRight | src/LackOpenAiResponse.php:22 | The right half of `trim` drops exactly the longest suffix of the character set. |
| Strings.Trim | src/LackOpenAiResponse.php:22 | A trimmed text neither starts nor ends with whitespace. |
| Strings.SplitFree | src/Helper/JsonSchemaGenerator.php:39-41 | The `explode` pieces of a text free of a pattern are free of it. |

## Left out

- The provider call and the iteration over its stream (src/LackOpenAiClient.php:133, :159): the stream is the `Env.provider` sequence of deltas for the request. The rethrow of a provider exception is not modelled.
- The loggers (`logCacheHit`, `logServerRequest`, `logStreamOutput`, …) and `print_r`/`dump`/`interactive`: output only, never affecting control flow, for a logger that implements the whole `LackOpenAiLogger` interface, such as `NullLogger`.
- `OpenAiClient.Create`: stands for a client built with an explicit logger. The default path (src/LackOpenAiClient.php:30-31) instantiates `CliLogger`, which lacks `logStreamOutput` and `logCacheHit` from the interface (src/Logger/LackOpenAiLogger.php:16-18), so PHP cannot declare the class and the constructor ends in a fatal error. The model does not represent that failure.
- `FileRequestCache` and `NoCache`: the cache is a map from key to text. A `NoCache` client is a client whose map never hits.
- `LackOpenAiFacet`: glue over the template, the client and file writes.
- Reflection and attributes (src/functions.php, src/Attributes/*): callbacks, parameters and class properties are explicit records. `addClass` is not modelled. `convertToJsonSchema`'s recursion into a referenced class is the abstract `ClassRef` schema, and its final `json_encode` is not modelled.
- `json_encode`, `json_decode` and `phore_json_decode`: `json_encode` is an uninterpreted `Env` parameter. `json_decode` is an `Env` parameter from text to an optional JSON value, where invalid JSON decodes to none. `getJson` is therefore not modelled.
- `StreamResponse.DecodedArguments`: whether a number is named `int` or `float` in the `TypeError` is decided from its literal. An integer literal beyond PHP_INT_MAX decodes to a float in PHP, so PHP's message says "float returned" where the model says "int".
- `uniqid()`: a token determined by the request, given by `Env.uniqid`. Two error turns built on equal requests therefore get equal tokens, where PHP's are time-based.
- The streamer callback is modelled as a flag, with the texts handed to it recorded in order. `$streamOutput` only travels to the follow-up call and has no effect.
- Array questions (`string|array` in `textComplete`): questions are optional strings.
- The provider's null delta values and non-string delta entries: deltas carry strings.
- Lengths count characters, while `strlen` counts bytes. The two agree for ASCII content only.
- Template data values are optional strings. PHP's conversion of other values by `preg_replace_callback` is not modelled. A loader cannot throw.
- A template built without a file leaves the file name uninitialised in PHP. The model always has one.
- File reading in `loadTemplate`: the file contents are a parameter.
- A doc comment that is `false` (no comment) is modelled as the empty text, which PHP's string conversion produces.
- `OpenAiClient.TextComplete`: recursion through follow-ups is bounded by a fuel counter. Exhausting it yields `TooDeep`, where PHP would keep recursing.
- `OpenAiClient.TextComplete`: the returned `LackOpenAiResponse` is represented by its text.
- `JsonSchema.ExtractDescription`: its ensures only bounds the shape of the result. Which lines survive is stated by `KeptLines` and `OneLineDocIsEmpty`.
- `JsonSchema.PlainDepth`: a class schema counts as depth 1, because its own properties are not followed. `ArrayDepth` covers only types in which a single removal of `[]` leaves none (`a[[]]` leaves one).

=== FILE: base.dfy ===
/** Small shared vocabulary: optional values, results and the PHP throwables
    the modelled code raises or lets through. */
module Base {

  /** A PHP value that may be null. */
  datatype Option<+T> = None | Some(value: T) {
    function GetOr(default: T): T {
      match this
      case Some(v) => v
      case None => default
    }
  }

  /** The throwables the modelled code can raise. `InvalidArgument` is
      PHP's `InvalidArgumentException`, the only kind the client catches;
      `TypeError` is raised by PHP itself for a null passed where a string
      is declared; `Other` is anything a registered callback throws that is
      not an `InvalidArgumentException`, and the `ReflectionException` of
      asking a parameter without a default for its default value. */
  datatype Thrown =
    | InvalidArgument(message: string)
    | TypeError(message: string)
    | Other(message: string)

  /** Either a value or the throwable that ended the computation. */
  datatype Result<+T> = Ok(value: T) | Err(error: Thrown)
}

=== FILE: chat_request.dfy ===
/** `ChatRequest`: the request body sent to the provider, an append-only
    message history plus the list of function definitions. */
module ChatRequest {
  import opened Base
  import opened Json
  import opened Strings
  import opened StreamResponse
  import opened FunctionDefinitions

  /** One entry of `messages`. An assistant turn is the accumulated
      `responseFull`: its string entries (role, content, ...) and, when a
      function was called, its `function_call` sub-array. */
  datatype Message =
    | System(content: string)
    | User(content: string)
    | Assistant(fields: map<string, string>, functionCall: Option<map<string, string>>)
    | FunctionResult(name: string, content: string)

  datatype Request = Request(model: string, messages: seq<Message>, functions: seq<FunctionDefinition>)

  const DefaultModel: string := "gpt-3.5-turbo-16k"

  /** `reset`: a new history holding the system message when it is truthy. */
  function Reset(r: Request, systemMessage: Option<string>): (r': Request)
    ensures r'.model == r.model && r'.functions == r.functions
    ensures Truthy(systemMessage) ==> r'.messages == [System(systemMessage.value)]
    ensures !Truthy(systemMessage) ==> r'.messages == []
  {
    if Truthy(systemMessage) then r.(messages := [System(systemMessage.value)]) else r.(messages := [])
  }

  /** `new ChatRequest($systemMessage)`. */
  function New(systemMessage: Option<string>): (r: Request)
    ensures r.model == DefaultModel && r.functions == []
    ensures r.messages == (if Truthy(systemMessage) then [System(systemMessage.value)] else [])
  {
    Reset(Request(DefaultModel, [], []), systemMessage)
  }

  /** `addFunctionDefinition`. */
  function AddFunctionDefinition(r: Request, def: FunctionDefinition): (r': Request)
    ensures r'.functions == r.functions + [def]
    ensures r'.messages == r.messages && r'.model == r.model
  {
    r.(functions := r.functions + [def])
  }

  /** `addUserContent`. */
  function AddUserContent(r: Request, content: string): (r': Request)
    ensures |r'.messages| == |r.messages| + 1
    ensures r'.messages[..|r.messages|] == r.messages
    ensures r'.messages[|r.messages|] == User(content)
    ensures r'.functions == r.functions && r'.model == r.model
  {
    r.(messages := r.messages + [User(content)])
  }

  /** The message `addResponse` stores for an accumulator: the whole
      `responseFull`, without `function_call` when its name is empty. */
  function ResponseMessage(a: Accum): (m: Message)
    requires WellFormed(a)
    ensures m.Assistant? && m.fields == a.fields
    ensures m.functionCall.Some? <==> IsFunctionCall(a)
    ensures m.functionCall.Some? ==> m.functionCall.value == a.functionCall
  {
    Assistant(a.fields, if FunctionName(a) == "" then None else Some(a.functionCall))
  }

  /** `addResponse`. */
  function AddResponse(r: Request, a: Accum): (r': Request)
    requires WellFormed(a)
    ensures |r'.messages| == |r.messages| + 1
    ensures r'.messages[..|r.messages|] == r.messages
    ensures r'.messages[|r.messages|] == ResponseMessage(a)
    ensures r'.functions == r.functions && r'.model == r.model
  {
    r.(messages := r.messages + [ResponseMessage(a)])
  }

  /** `addFunctionResult`; `encode` is `json_encode`. */
  function AddFunctionResult(r: Request, name: string, result: Value, encode: Value -> string): (r': Request)
    ensures |r'.messages| == |r.messages| + 1
    ensures r'.messages[..|r.messages|] == r.messages
    ensures r'.messages[|r.messages|] == FunctionResult(name, encode(result))
    ensures r'.functions == r.functions && r'.model == r.model
  {
    r.(messages := r.messages + [FunctionResult(name, encode(result))])
  }
}

=== FILE: client.dfy ===
/** `LackOpenAiClient`: the function registry and dispatcher, the
    streaming throttle and the `textComplete` cycle (cache short-circuit,
    history update, function-call handling and its follow-up completion). */
module OpenAiClient {
  import opened Base
  import opened Json
  import opened Strings
  import opened StreamResponse
  import opened FunctionDefinitions
  import opened ChatRequest

  /** What invoking a callback does: return a value or throw. */
  datatype CallOutcome = Returned(value: Value) | Threw(error: Thrown)

  /** The collaborators the client calls but the model does not interpret:
      `cacheKey` is `json_encode([$request, $question])`, `provider` the
      streamed completion the API returns for a request, `decode` is
      `json_decode($text, true)` (invalid JSON as `None`), `encode` is
      `json_encode`, `invoke` runs a callback on positional arguments and
      `uniqid` stands for the token appended to an error turn. */
  datatype Env = Env(
    cacheKey: (Request, Option<string>) -> string,
    provider: Request -> seq<Delta>,
    decode: string -> Option<Value>,
    encode: Value -> string,
    invoke: (Callable, seq<Value>) -> CallOutcome,
    uniqid: Request -> string)

  /** The client's state: the chat request and the registry `$functions`. */
  datatype Client = Client(request: Request, functions: map<string, Callable>)

  /** The constructor, given an explicit logger: an empty request and an
      empty registry. Without one, PHP instantiates `CliLogger`, which does
      not implement the whole logger interface, and stops with a fatal
      error; that path is not represented. */
  function Create(): (c: Client)
    ensures c.request.model == DefaultModel
    ensures c.request.messages == [] && c.request.functions == [] && c.functions == map[]
  {
    Client(New(None), map[])
  }

  /** `reset`: the temperature and model are accepted and dropped, because
      `ChatRequest::reset` takes only the system message. */
  function Reset(c: Client, systemContent: Option<string>, temperature: real, model: string): (c': Client)
    ensures c'.request.model == c.request.model
    ensures c'.request.functions == c.request.functions && c'.functions == c.functions
    ensures c'.request.messages == (if Truthy(systemContent) then [System(systemContent.value)] else [])
  {
    c.(request := ChatRequest.Reset(c.request, systemContent))
  }

  /** `addFunction`: the definition is appended, the registry entry for its
      name replaced. */
  function AddFunction(c: Client, callback: Callable): (c': Client)
    ensures c'.request.functions == c.request.functions + [Generate(callback)]
    ensures c'.request.messages == c.request.messages && c'.request.model == c.request.model
    ensures c'.functions == c.functions[RegisteredName(callback) := callback]
  {
    var def := Generate(callback);
    Client(AddFunctionDefinition(c.request, def), c.functions[def.name := callback])
  }

  /** Registering `callbacks` one after the other. */
  function RegisterAll(c: Client, callbacks: seq<Callable>): Client {
    if |callbacks| == 0 then c
    else AddFunction(RegisterAll(c, callbacks[..|callbacks| - 1]), callbacks[|callbacks| - 1])
  }

  /** The names `callbacks` register under. */
  function NamesOf(callbacks: seq<Callable>): set<string> {
    set i | 0 <= i < |callbacks| :: RegisteredName(callbacks[i])
  }

  lemma NamesOfSnoc(callbacks: seq<Callable>)
    requires |callbacks| > 0
    ensures NamesOf(callbacks)
      == NamesOf(callbacks[..|callbacks| - 1]) + {RegisteredName(callbacks[|callbacks| - 1])}
  {
    var init := callbacks[..|callbacks| - 1];
    forall n | n in NamesOf(callbacks)
      ensures n in NamesOf(init) + {RegisteredName(callbacks[|callbacks| - 1])}
    {
      var i :| 0 <= i < |callbacks| && RegisteredName(callbacks[i]) == n;
      if i < |init| {
        assert init[i] == callbacks[i];
      }
    }
    forall n | n in NamesOf(init)
      ensures n in NamesOf(callbacks)
    {
      var i :| 0 <= i < |init| && RegisteredName(init[i]) == n;
      assert callbacks[i] == init[i];
    }
  }

  /** Every registration adds a definition, and the registry knows exactly
      the registered names. */
  lemma {:induction false} RegisteredNames(c: Client, callbacks: seq<Callable>)
    ensures |RegisterAll(c, callbacks).request.functions| == |c.request.functions| + |callbacks|
    ensures RegisterAll(c, callbacks).functions.Keys == c.functions.Keys + NamesOf(callbacks)
  {
    if |callbacks| > 0 {
      RegisteredNames(c, callbacks[..|callbacks| - 1]);
      NamesOfSnoc(callbacks);
    }
  }

  /** For every registered name the registry holds the last callback
      registered under it. */
  lemma {:induction false} LastRegistrationWins(c: Client, callbacks: seq<Callable>)
    ensures forall i :: (0 <= i < |callbacks| &&
      forall j :: i < j < |callbacks| ==> RegisteredName(callbacks[j]) != RegisteredName(callbacks[i])) ==>
      RegisteredName(callbacks[i]) in RegisterAll(c, callbacks).functions &&
      RegisterAll(c, callbacks).functions[RegisteredName(callbacks[i])] == callbacks[i]
  {
    if |callbacks| > 0 {
      var init, last := callbacks[..|callbacks| - 1], callbacks[|callbacks| - 1];
      var prev := RegisterAll(c, init);
      var next := RegisterAll(c, callbacks);
      LastRegistrationWins(c, init);
      assert next.functions == prev.functions[RegisteredName(last) := last];
      forall i | 0 <= i < |callbacks| &&
        forall j :: i < j < |callbacks| ==> RegisteredName(callbacks[j]) != RegisteredName(callbacks[i])
        ensures RegisteredName(callbacks[i]) in next.functions
        ensures next.functions[RegisteredName(callbacks[i])] == callbacks[i]
      {
        if i < |init| {
          assert init[i] == callbacks[i];
          assert forall j :: i < j < |init| ==> init[j] == callbacks[j];
          assert RegisteredName(last) != RegisteredName(callbacks[i]);
        }
      }
    }
  }

  /** PHP `isset($args[$name])`: present and not null. */
  predicate Supplied(args: map<string, Value>, name: string) {
    name in args && args[name] != Null
  }

  /** A parameter the loop gets past: supplied, or optional with a default
      that reflection can return. */
  predicate Resolvable(args: map<string, Value>, p: Param) {
    Supplied(args, p.name) || (p.optional && p.default.Some?)
  }

  function ResolvedValue(args: map<string, Value>, p: Param): Value
    requires Resolvable(args, p)
  {
    if Supplied(args, p.name) then args[p.name] else p.default.value
  }

  /** What an unresolvable parameter throws: `getDefaultValue` on an
      optional parameter without a default raises `ReflectionException`,
      any other parameter the missing-parameter exception. */
  function ResolveFailure(p: Param): Thrown {
    if p.optional then Other(NoDefaultMessage) else InvalidArgument(MissingMessage(p.name))
  }

  const NoDefaultMessage: string := "Internal error: Failed to retrieve the default value"

  /** The message of a missing-parameter exception, as written (it lacks
      its closing quote). */
  function MissingMessage(name: string): string {
    "Missing required parameter '" + name
  }

  function UndefinedMessage(name: string): string {
    "Undefined function '" + name + "'"
  }

  /** The argument loop of `runFucntion`: per parameter in declaration
      order, a supplied value, else the default of an optional parameter,
      else the exception for the first parameter that has neither. */
  function ResolveArguments(params: seq<Param>, args: map<string, Value>): (r: Result<seq<Value>>)
    ensures r.Ok? <==> forall i :: 0 <= i < |params| ==> Resolvable(args, params[i])
    ensures r.Ok? ==> |r.value| == |params|
    ensures r.Ok? ==> forall i :: 0 <= i < |params| ==> r.value[i] == ResolvedValue(args, params[i])
    ensures r.Err? ==> exists i :: (0 <= i < |params| && !Resolvable(args, params[i])
      && (forall j :: 0 <= j < i ==> Resolvable(args, params[j]))
      && r.error == ResolveFailure(params[i]))
  {
    if |params| == 0 then Ok([])
    else
      var p := params[0];
      assert forall i :: 1 <= i < |params| ==> params[1..][i - 1] == params[i];
      if !Resolvable(args, p) then Err(ResolveFailure(p))
      else
        match ResolveArguments(params[1..], args)
        case Ok(vs) =>
          assert forall i :: 1 <= i < |params| ==> ([ResolvedValue(args, p)] + vs)[i] == vs[i - 1];
          Ok([ResolvedValue(args, p)] + vs)
        case Err(e) =>
          var k :| 0 <= k < |params[1..]| && !Resolvable(args, params[1..][k])
            && (forall j :: 0 <= j < k ==> Resolvable(args, params[1..][j]))
            && e == ResolveFailure(params[1..][k]);
          assert params[1..][k] == params[k + 1];
          assert forall j :: 0 <= j < k + 1 ==> Resolvable(args, params[j]) by {
            forall j | 0 <= j < k + 1
              ensures Resolvable(args, params[j])
            {
              if j > 0 {
                assert params[1..][j - 1] == params[j];
              }
            }
          }
          Err(e)
  }

  /** `runFucntion`: an unregistered name throws `InvalidArgumentException`,
      an unresolvable argument list the failure of its first unresolvable
      parameter; the callback is invoked only with a complete argument
      list. */
  function RunFunction(env: Env, functions: map<string, Callable>, name: string, args: map<string, Value>): (r: CallOutcome)
    ensures name !in functions ==> r == Threw(InvalidArgument(UndefinedMessage(name)))
    ensures name in functions && ResolveArguments(functions[name].params, args).Err? ==>
      r == Threw(ResolveArguments(functions[name].params, args).error)
    ensures name in functions && ResolveArguments(functions[name].params, args).Ok? ==>
      r == env.invoke(functions[name], ResolveArguments(functions[name].params, args).value)
  {
    if name !in functions then Threw(InvalidArgument(UndefinedMessage(name)))
    else
      match ResolveArguments(functions[name].params, args)
      case Err(e) => Threw(e)
      case Ok(vs) => env.invoke(functions[name], vs)
  }

  const FunctionsPrefix: string := "functions."

  /** The name the model called, without one leading `functions.`. */
  function StripPrefix(name: string): (r: string)
    ensures FunctionsPrefix <= name ==> name == FunctionsPrefix + r
    ensures !(FunctionsPrefix <= name) ==> r == name
  {
    if FunctionsPrefix <= name then name[|FunctionsPrefix|..] else name
  }

  /** Content length that must be exceeded before the streamer is called
      again. */
  const FlushStep: nat := 250

  /** The stream loop's state: the accumulator, `$lastFlush`, and the texts
      handed to the streamer so far. */
  datatype StreamState = StreamState(acc: Accum, lastFlush: nat, flushed: seq<string>)

  /** One iteration of the stream loop. */
  function Feed(st: StreamState, d: Delta, streaming: bool): StreamState
    requires WellFormed(st.acc)
  {
    var acc := Step(st.acc, d);
    if streaming && |Content(acc)| > st.lastFlush + FlushStep then
      StreamState(acc, |Content(acc)|, st.flushed + [Content(acc)])
    else
      StreamState(acc, st.lastFlush, st.flushed)
  }

  /** What the throttle guarantees at every point of the stream: without a
      streamer nothing is flushed; with one, at most `FlushStep` characters
      are unflushed, every flush is a prefix of the content, each is more
      than `FlushStep` longer than the one before, and `$lastFlush` is the
      length of the last one. */
  predicate Throttled(st: StreamState, streaming: bool)
    requires WellFormed(st.acc)
  {
    && (!streaming ==> st.flushed == [] && st.lastFlush == 0)
    && (streaming ==> |Content(st.acc)| <= st.lastFlush + FlushStep)
    && st.lastFlush <= |Content(st.acc)|
    && (|st.flushed| == 0 ==> st.lastFlush == 0)
    && (|st.flushed| > 0 ==> st.lastFlush == |st.flushed[|st.flushed| - 1]|)
    && (|st.flushed| > 0 ==> |st.flushed[0]| > FlushStep)
    && (forall k :: 0 < k < |st.flushed| ==> |st.flushed[k]| > |st.flushed[k - 1]| + FlushStep)
    && (forall k :: 0 <= k < |st.flushed| ==> st.flushed[k] <= Content(st.acc))
  }

  /** One iteration keeps the throttle's guarantees. */
  lemma FeedThrottled(st: StreamState, d: Delta, streaming: bool)
    requires WellFormed(st.acc) && Throttled(st, streaming)
    ensures Feed(st, d, streaming).acc == Step(st.acc, d)
    ensures Throttled(Feed(st, d, streaming), streaming)
  {
    var acc := Step(st.acc, d);
    assert Content(st.acc) <= Content(acc);
    forall k | 0 <= k < |st.flushed|
      ensures st.flushed[k] <= Content(acc)
    {
      assert st.flushed[k] <= Content(st.acc);
    }
  }

  /** The stream loop over `ds`. */
  function Consume(ds: seq<Delta>, streaming: bool): (st: StreamState)
    ensures st.acc == Accumulate(ds)
    ensures Throttled(st, streaming)
  {
    if |ds| == 0 then StreamState(Initial(), 0, [])
    else
      var prev := Consume(ds[..|ds| - 1], streaming);
      FeedThrottled(prev, ds[|ds| - 1], streaming);
      Feed(prev, ds[|ds| - 1], streaming)
  }

  /** The stream loop over one more delta is one more iteration. */
  lemma ConsumeSnoc(ds: seq<Delta>, i: nat, streaming: bool)
    requires i < |ds|
    ensures WellFormed(Consume(ds[..i], streaming).acc)
    ensures Consume(ds[..i + 1], streaming) == Feed(Consume(ds[..i], streaming), ds[i], streaming)
  {
    assert ds[..i + 1][..i] == ds[..i];
  }

  /** The stream loop as the source runs it. */
  method ConsumeStream(ds: seq<Delta>, streaming: bool) returns (acc: Accum, flushed: seq<string>)
    ensures acc == Accumulate(ds)
    ensures flushed == Consume(ds, streaming).flushed
    ensures !streaming ==> flushed == []
    ensures forall k :: 0 <= k < |flushed| ==> flushed[k] <= Content(acc)
    ensures forall k :: 0 < k < |flushed| ==> |flushed[k]| > |flushed[k - 1]| + FlushStep
  {
    acc := Initial();
    var lastFlush: nat := 0;
    flushed := [];
    var i := 0;
    while i < |ds|
      invariant 0 <= i <= |ds|
      invariant StreamState(acc, lastFlush, flushed) == Consume(ds[..i], streaming)
    {
      ConsumeSnoc(ds, i, streaming);
      acc := Step(acc, ds[i]);
      if streaming && |Content(acc)| > lastFlush + FlushStep {
        lastFlush := |Content(acc)|;
        flushed := flushed + [Content(acc)];
      }
      i := i + 1;
    }
    assert ds[..|ds|] == ds;
  }

  /** The text of the function-result turn written for a caught
      `InvalidArgumentException`. */
  function ErrorText(message: string, token: string): (s: string)
    ensures "Error: " + message <= s
  {
    "Error: " + message + ". Please append the missing parameter and try again. " + token
  }

  /** The name dispatched for a function-call response. */
  function CalledName(acc: Accum): string
    requires WellFormed(acc)
  {
    StripPrefix(FunctionName(acc))
  }

  /** Dispatching a function-call response: the arguments are read before
      the `try`, so their `TypeError` comes first; then `runFucntion`. */
  function Dispatch(env: Env, c: Client, acc: Accum): (r: CallOutcome)
    requires WellFormed(acc)
    ensures FunctionArguments(acc, env.decode).Err? ==> r == Threw(FunctionArguments(acc, env.decode).error)
    ensures FunctionArguments(acc, env.decode).Ok? && CalledName(acc) !in c.functions ==>
      r == Threw(InvalidArgument(UndefinedMessage(CalledName(acc))))
    ensures r.Returned? ==>
      && FunctionArguments(acc, env.decode).Ok?
      && CalledName(acc) in c.functions
      && ResolveArguments(c.functions[CalledName(acc)].params, FunctionArguments(acc, env.decode).value).Ok?
  {
    match FunctionArguments(acc, env.decode)
    case Err(e) => Threw(e)
    case Ok(args) => RunFunction(env, c.functions, CalledName(acc), args)
  }

  /** The function-call branch of `textComplete` up to the follow-up: one
      function-result turn for the called name is appended, or the
      callback's exception propagates. */
  function HandleFunctionCall(env: Env, c: Client, acc: Accum): (r: Result<Client>)
    requires WellFormed(acc)
    ensures r.Ok? ==> r.value.functions == c.functions
    ensures r.Ok? ==> r.value.request.functions == c.request.functions && r.value.request.model == c.request.model
    ensures r.Ok? ==> |r.value.request.messages| == |c.request.messages| + 1
    ensures r.Ok? ==> r.value.request.messages[..|c.request.messages|] == c.request.messages
    ensures r.Ok? ==> r.value.request.messages[|c.request.messages|].FunctionResult?
    ensures r.Ok? ==> r.value.request.messages[|c.request.messages|].name == CalledName(acc)
  {
    var name := CalledName(acc);
    match Dispatch(env, c, acc)
    case Returned(v) => Ok(c.(request := AddFunctionResult(c.request, name, v, env.encode)))
    case Threw(InvalidArgument(message)) =>
      var text := ErrorText(message, env.uniqid(c.request));
      Ok(c.(request := AddFunctionResult(c.request, name, Str(text), env.encode)))
    case Threw(e) => Err(e)
  }

  /** What the function-result turn holds: the encoded return value; for
      any `InvalidArgumentException` (an undefined function included) the
      encoded error text, which starts with "Error: " and the message;
      any other exception propagates. */
  lemma FunctionResultTurn(env: Env, c: Client, acc: Accum)
    requires WellFormed(acc)
    ensures Dispatch(env, c, acc).Returned? ==>
      HandleFunctionCall(env, c, acc)
        == Ok(c.(request := AddFunctionResult(c.request, CalledName(acc), Dispatch(env, c, acc).value, env.encode)))
    ensures Dispatch(env, c, acc).Threw? && Dispatch(env, c, acc).error.InvalidArgument? ==>
      var text := ErrorText(Dispatch(env, c, acc).error.message, env.uniqid(c.request));
      && "Error: " + Dispatch(env, c, acc).error.message <= text
      && HandleFunctionCall(env, c, acc)
           == Ok(c.(request := AddFunctionResult(c.request, CalledName(acc), Str(text), env.encode)))
    ensures Dispatch(env, c, acc).Threw? && !Dispatch(env, c, acc).error.InvalidArgument? ==>
      HandleFunctionCall(env, c, acc) == Err(Dispatch(env, c, acc).error)
  {
    var out := HandleFunctionCall(env, c, acc);
    match Dispatch(env, c, acc)
    case Returned(v) =>
    case Threw(e) =>
      if e.InvalidArgument? {
        assert out.Ok?;
      } else {
        assert out == Err(e);
      }
  }

  /** A function the registry lacks becomes an error turn, as the `catch`
      of `InvalidArgumentException` writes it. */
  lemma UndefinedFunctionTurn(env: Env, c: Client, acc: Accum)
    requires WellFormed(acc)
    ensures FunctionArguments(acc, env.decode).Ok? && CalledName(acc) !in c.functions ==>
      HandleFunctionCall(env, c, acc).Ok? && Dispatch(env, c, acc) == Threw(InvalidArgument(UndefinedMessage(CalledName(acc))))
  {
    var d := Dispatch(env, c, acc);
    if FunctionArguments(acc, env.decode).Ok? && CalledName(acc) !in c.functions {
      assert d == Threw(InvalidArgument(UndefinedMessage(CalledName(acc))));
    }
  }

  /** Arguments that decode to a scalar raise a `TypeError` before the
      `try`, so it propagates out of the function-call branch. */
  lemma ScalarArgumentsRaise(env: Env, c: Client, acc: Accum)
    requires WellFormed(acc)
    ensures FunctionArguments(acc, env.decode).Err? ==>
      HandleFunctionCall(env, c, acc) == Err(FunctionArguments(acc, env.decode).error)
  {
    var args := FunctionArguments(acc, env.decode);
    if args.Err? {
      assert args.error.TypeError? && Dispatch(env, c, acc) == Threw(args.error);
    }
  }

  /** A parameter that is optional but has no default (a variadic), left
      unsupplied with every earlier parameter resolvable, makes
      `getDefaultValue` raise `ReflectionException`; the `catch` only takes
      `InvalidArgumentException`, so it propagates out of the function-call
      branch. */
  lemma MissingDefaultEscapes(env: Env, c: Client, acc: Accum, i: nat)
    requires WellFormed(acc)
    requires FunctionArguments(acc, env.decode).Ok? && CalledName(acc) in c.functions
    requires var ps := c.functions[CalledName(acc)].params;
      && i < |ps| && ps[i].optional && ps[i].default.None?
      && !Supplied(FunctionArguments(acc, env.decode).value, ps[i].name)
      && forall j :: 0 <= j < i ==> Resolvable(FunctionArguments(acc, env.decode).value, ps[j])
    ensures HandleFunctionCall(env, c, acc) == Err(Other(NoDefaultMessage))
  {
    var ps := c.functions[CalledName(acc)].params;
    var args := FunctionArguments(acc, env.decode).value;
    var r := ResolveArguments(ps, args);
    assert !Resolvable(args, ps[i]);
    var k :| 0 <= k < |ps| && !Resolvable(args, ps[k])
      && (forall j :: 0 <= j < k ==> Resolvable(args, ps[j]))
      && r.error == ResolveFailure(ps[k]);
    assert k == i;
    assert Dispatch(env, c, acc) == Threw(Other(NoDefaultMessage));
  }

  /** What `textComplete` hands back: a text, a propagated throwable, or
      (a modelling bound) a follow-up chain deeper than the fuel allows. */
  datatype Reply = Text(text: string) | Raised(error: Thrown) | TooDeep

  /** The state after `textComplete`: the client, the cache, the texts
      passed to the streamer in order, and the reply. */
  datatype Completion = Completion(client: Client, cache: map<string, string>, streamed: seq<string>, reply: Reply)

  /** The request sent to the provider: the question is appended as a user
      turn only when it is truthy. */
  function Asked(r: Request, question: Option<string>): (r': Request)
    ensures Truthy(question) ==> r'.messages == r.messages + [User(question.value)]
    ensures !Truthy(question) ==> r' == r
    ensures r'.functions == r.functions && r'.model == r.model
  {
    if Truthy(question) then AddUserContent(r, question.value) else r
  }

  /** The accumulated response of the cycle `textComplete` runs on a cache
      miss. */
  function FirstCycle(env: Env, c: Client, question: Option<string>): (acc: Accum)
    ensures WellFormed(acc)
  {
    Accumulate(env.provider(Asked(c.request, question)))
  }

  /** One provider cycle on a cache miss: the client with the question and
      the response appended, the accumulated response and the in-stream
      flushes. */
  datatype Cycle = Cycle(answered: Client, acc: Accum, flushed: seq<string>)

  function RunCycle(env: Env, c: Client, question: Option<string>, streaming: bool): (cy: Cycle)
    ensures cy.acc == FirstCycle(env, c, question)
    ensures cy.answered.functions == c.functions
    ensures cy.answered.request.functions == c.request.functions && cy.answered.request.model == c.request.model
    ensures cy.answered.request.messages == Asked(c.request, question).messages + [ResponseMessage(cy.acc)]
    ensures c.request.messages <= cy.answered.request.messages
    ensures !streaming ==> cy.flushed == []
  {
    var asked := Asked(c.request, question);
    var st := Consume(env.provider(asked), streaming);
    Cycle(c.(request := AddResponse(asked, st.acc)), st.acc, st.flushed)
  }

  /** The in-stream flushes of a cycle obey the throttle: none without a
      streamer; each a prefix of the cycle's content; the first more than
      `FlushStep` characters long and each later one more than `FlushStep`
      longer than the one before; and at most `FlushStep` characters
      past the last flush are left for the final hand-over. */
  lemma CycleThrottled(env: Env, c: Client, question: Option<string>, streaming: bool)
    ensures var cy := RunCycle(env, c, question, streaming);
      && (!streaming ==> cy.flushed == [])
      && (forall k :: 0 <= k < |cy.flushed| ==> cy.flushed[k] <= Content(cy.acc))
      && (|cy.flushed| > 0 ==> |cy.flushed[0]| > FlushStep)
      && (forall k :: 0 < k < |cy.flushed| ==> |cy.flushed[k]| > |cy.flushed[k - 1]| + FlushStep)
      && (streaming ==> |Content(cy.acc)| <= (if |cy.flushed| == 0 then 0 else |cy.flushed[|cy.flushed| - 1]|) + FlushStep)
  {
    var st := Consume(env.provider(Asked(c.request, question)), streaming);
    assert Throttled(st, streaming);
  }

  /** A text reply `text` recorded under `key`: cached there and, when a
      streamer is set, the last text handed to it. */
  predicate RepliedWith(out: Completion, key: string, text: string, streaming: bool) {
    && out.reply == Text(text)
    && key in out.cache && out.cache[key] == text
    && (streaming ==> |out.streamed| > 0 && out.streamed[|out.streamed| - 1] == text)
  }

  /** `c'` is `c` with possibly more turns appended to its history. */
  predicate HistoryGrows(c: Client, c': Client) {
    && c'.functions == c.functions
    && c'.request.functions == c.request.functions
    && c'.request.model == c.request.model
    && c.request.messages <= c'.request.messages
  }

  /** `cache'` keeps every entry of `cache`. */
  predicate CacheGrows(cache: map<string, string>, cache': map<string, string>) {
    forall k :: k in cache ==> k in cache' && cache'[k] == cache[k]
  }

  /** `textComplete(question, streamer)`: on a cache hit the cached text;
      on a miss one provider cycle, a function-call dispatch when the
      response is one, then exactly one `textComplete(null)` without
      streamer. Whatever happens, only the history and the cache change,
      and both only grow. */
  function TextComplete(env: Env, c: Client, cache: map<string, string>, question: Option<string>,
                        streaming: bool, fuel: nat): (out: Completion)
    decreases fuel, 1
    ensures HistoryGrows(c, out.client)
    ensures CacheGrows(cache, out.cache)
    ensures !streaming ==> out.streamed == []
  {
    var key := env.cacheKey(c.request, question);
    if key in cache then
      Completion(c, cache, if streaming then [cache[key]] else [], Text(cache[key]))
    else
      var cy := RunCycle(env, c, question, streaming);
      if !IsFunctionCall(cy.acc) then
        var content := Content(cy.acc);
        Completion(cy.answered, cache[key := content], if streaming then cy.flushed + [content] else [], Text(content))
      else
        AfterFunctionCall(env, cy, cache, key, streaming, fuel)
  }

  /** The rest of `textComplete` once the response is a function call:
      dispatch, one follow-up completion, then the first cycle's content is
      cached and returned. */
  function AfterFunctionCall(env: Env, cy: Cycle, cache: map<string, string>, key: string,
                             streaming: bool, fuel: nat): (out: Completion)
    requires WellFormed(cy.acc) && key !in cache
    requires !streaming ==> cy.flushed == []
    decreases fuel, 0
    ensures HistoryGrows(cy.answered, out.client)
    ensures CacheGrows(cache, out.cache)
    ensures !streaming ==> out.streamed == []
  {
    var content := Content(cy.acc);
    match HandleFunctionCall(env, cy.answered, cy.acc)
    case Err(e) => Completion(cy.answered, cache, cy.flushed, Raised(e))
    case Ok(handled) =>
      assert cy.answered.request.messages <= handled.request.messages;
      if fuel == 0 then Completion(handled, cache, cy.flushed, TooDeep)
      else
        var follow := TextComplete(env, handled, cache, None, false, fuel - 1);
        if !follow.reply.Text? then Completion(follow.client, follow.cache, cy.flushed, follow.reply)
        else Completion(follow.client, follow.cache[key := content], if streaming then cy.flushed + [content] else [], Text(content))
  }

  /** A cache hit returns the cached text, hands it to the streamer once,
      and changes neither the history nor the cache. */
  lemma CacheHit(env: Env, c: Client, cache: map<string, string>, question: Option<string>, streaming: bool, fuel: nat)
    requires env.cacheKey(c.request, question) in cache
    ensures
      var cached := cache[env.cacheKey(c.request, question)];
      TextComplete(env, c, cache, question, streaming, fuel)
        == Completion(c, cache, if streaming then [cached] else [], Text(cached))
  {
  }

  /** A miss runs one cycle; without a function call it ends there, with
      one it continues with the dispatch. */
  lemma MissCases(env: Env, c: Client, cache: map<string, string>, question: Option<string>, streaming: bool, fuel: nat)
    requires env.cacheKey(c.request, question) !in cache
    ensures
      var key := env.cacheKey(c.request, question);
      var cy := RunCycle(env, c, question, streaming);
      var out := TextComplete(env, c, cache, question, streaming, fuel);
      && (!IsFunctionCall(cy.acc) ==>
            out == Completion(cy.answered, cache[key := Content(cy.acc)],
                              if streaming then cy.flushed + [Content(cy.acc)] else [], Text(Content(cy.acc))))
      && (IsFunctionCall(cy.acc) ==> out == AfterFunctionCall(env, cy, cache, key, streaming, fuel))
  {
  }

  /** The outcomes after a function call: the callback's exception, the
      fuel bound, the follow-up's failure, or the first cycle's content. */
  lemma AfterCases(env: Env, cy: Cycle, cache: map<string, string>, key: string, streaming: bool, fuel: nat)
    requires WellFormed(cy.acc) && key !in cache
    requires !streaming ==> cy.flushed == []
    ensures
      var out := AfterFunctionCall(env, cy, cache, key, streaming, fuel);
      var content := Content(cy.acc);
      && (HandleFunctionCall(env, cy.answered, cy.acc).Err? ==>
            out == Completion(cy.answered, cache, cy.flushed, Raised(HandleFunctionCall(env, cy.answered, cy.acc).error)))
      && (HandleFunctionCall(env, cy.answered, cy.acc).Ok? && fuel == 0 ==>
            out == Completion(HandleFunctionCall(env, cy.answered, cy.acc).value, cache, cy.flushed, TooDeep))
      && (HandleFunctionCall(env, cy.answered, cy.acc).Ok? && fuel > 0 ==>
            var follow := TextComplete(env, HandleFunctionCall(env, cy.answered, cy.acc).value, cache, None, false, fuel - 1);
            && out.client == follow.client
            && (!follow.reply.Text? ==> out == Completion(follow.client, follow.cache, cy.flushed, follow.reply))
            && (follow.reply.Text? ==>
                  out == Completion(follow.client, follow.cache[key := content],
                                    if streaming then cy.flushed + [content] else [], Text(content))))
  {
  }

  /** On a miss the question (when truthy) and the streamed response are
      the first turns appended; without a function call they are the only
      ones, and the first cycle's content is returned and cached under the
      key computed before the question was appended. */
  lemma CacheMiss(env: Env, c: Client, cache: map<string, string>, question: Option<string>, streaming: bool, fuel: nat)
    requires env.cacheKey(c.request, question) !in cache
    ensures
      var out := TextComplete(env, c, cache, question, streaming, fuel);
      var first := FirstCycle(env, c, question);
      var turns := Asked(c.request, question).messages + [ResponseMessage(first)];
      && turns <= out.client.request.messages
      && Consume(env.provider(Asked(c.request, question)), streaming).flushed <= out.streamed
      && (!IsFunctionCall(first) ==>
            && out.client.request.messages == turns
            && out.cache == cache[env.cacheKey(c.request, question) := Content(first)]
            && out.reply == Text(Content(first)))
  {
    var key := env.cacheKey(c.request, question);
    var cy := RunCycle(env, c, question, streaming);
    var out := TextComplete(env, c, cache, question, streaming, fuel);
    MissCases(env, c, cache, question, streaming, fuel);
    CycleThrottled(env, c, question, streaming);
    if IsFunctionCall(cy.acc) {
      AfterCases(env, cy, cache, key, streaming, fuel);
      assert cy.answered.request.messages <= out.client.request.messages;
      assert cy.flushed <= out.streamed;
    }
  }

  /** After a function call a text reply is always the first cycle's
      content. */
  lemma AfterText(env: Env, cy: Cycle, cache: map<string, string>, key: string, streaming: bool, fuel: nat)
    requires WellFormed(cy.acc) && key !in cache
    requires !streaming ==> cy.flushed == []
    requires AfterFunctionCall(env, cy, cache, key, streaming, fuel).reply.Text?
    ensures RepliedWith(AfterFunctionCall(env, cy, cache, key, streaming, fuel), key, Content(cy.acc), streaming)
  {
    AfterCases(env, cy, cache, key, streaming, fuel);
  }

  /** Whenever a miss ends with a text, that text is the first cycle's
      content, not the follow-up's: it is what is cached under the key and
      what the streamer receives last. */
  lemma FirstContentReturned(env: Env, c: Client, cache: map<string, string>, question: Option<string>, streaming: bool, fuel: nat)
    requires env.cacheKey(c.request, question) !in cache
    ensures TextComplete(env, c, cache, question, streaming, fuel).reply.Text? ==>
      RepliedWith(TextComplete(env, c, cache, question, streaming, fuel),
                  env.cacheKey(c.request, question), Content(FirstCycle(env, c, question)), streaming)
  {
    var key := env.cacheKey(c.request, question);
    var cy := RunCycle(env, c, question, streaming);
    var out := TextComplete(env, c, cache, question, streaming, fuel);
    MissCases(env, c, cache, question, streaming, fuel);
    if out.reply.Text? {
      if IsFunctionCall(cy.acc) {
        AfterText(env, cy, cache, key, streaming, fuel);
        assert out == AfterFunctionCall(env, cy, cache, key, streaming, fuel);
      } else {
        assert out == Completion(cy.answered, cache[key := Content(cy.acc)],
                                 if streaming then cy.flushed + [Content(cy.acc)] else [], Text(Content(cy.acc)));
      }
    }
  }

  /** After a callback returned, the follow-up completion runs on the
      history extended by exactly the encoded result. */
  lemma AfterReturned(env: Env, cy: Cycle, cache: map<string, string>, key: string, fuel: nat)
    requires WellFormed(cy.acc) && key !in cache && cy.flushed == [] && fuel > 0
    requires Dispatch(env, cy.answered, cy.acc).Returned?
    ensures
      var result := FunctionResult(CalledName(cy.acc), env.encode(Dispatch(env, cy.answered, cy.acc).value));
      var handled := cy.answered.(request := cy.answered.request.(messages := cy.answered.request.messages + [result]));
      var follow := TextComplete(env, handled, cache, None, false, fuel - 1);
      var out := AfterFunctionCall(env, cy, cache, key, false, fuel);
      && out.client == follow.client
      && (follow.reply.Text? ==> out.reply == Text(Content(cy.acc)))
  {
    FunctionResultTurn(env, cy.answered, cy.acc);
    AfterCases(env, cy, cache, key, false, fuel);
  }

  /** A follow-up completion that misses the cache and is answered
      without a function call appends exactly the assistant turn. */
  lemma PlainFollowUp(env: Env, f: Client, cache: map<string, string>, fuel: nat)
    requires env.cacheKey(f.request, None) !in cache && !IsFunctionCall(FirstCycle(env, f, None))
    ensures
      var out := TextComplete(env, f, cache, None, false, fuel);
      && out.client.request.messages == f.request.messages + [ResponseMessage(FirstCycle(env, f, None))]
      && out.reply.Text?
  {
    MissCases(env, f, cache, None, false, fuel);
  }

  /** The client a callback's return hands to the follow-up completion:
      the question, the assistant's function call and the encoded result
      appended. */
  function RoundHandled(env: Env, c: Client, question: string): (f: Client)
    ensures f.functions == c.functions && f.request.model == c.request.model
    ensures f.request.functions == c.request.functions
    ensures
      var first := FirstCycle(env, c, Some(question));
      var answered := c.(request := AddResponse(AddUserContent(c.request, question), first));
      Dispatch(env, answered, first).Returned? ==>
        f.request.messages == c.request.messages
          + [User(question), ResponseMessage(first), FunctionResult(CalledName(first), env.encode(Dispatch(env, answered, first).value))]
  {
    var first := FirstCycle(env, c, Some(question));
    var answered := c.(request := AddResponse(AddUserContent(c.request, question), first));
    var result := Dispatch(env, answered, first);
    var value := if result.Returned? then result.value else Null;
    answered.(request := AddFunctionResult(answered.request, CalledName(first), value, env.encode))
  }

  /** When the callback returns, the follow-up runs on `RoundHandled`, its
      history is kept, and a text follow-up makes the round reply with the
      first cycle's content. */
  lemma FunctionCallRound(env: Env, c: Client, cache: map<string, string>, question: string, fuel: nat)
    requires Truthy(Some(question)) && fuel > 0
    requires env.cacheKey(c.request, Some(question)) !in cache
    requires IsFunctionCall(FirstCycle(env, c, Some(question)))
    requires
      var answered := c.(request := AddResponse(AddUserContent(c.request, question), FirstCycle(env, c, Some(question))));
      Dispatch(env, answered, FirstCycle(env, c, Some(question))).Returned?
    ensures
      var out := TextComplete(env, c, cache, Some(question), false, fuel);
      var inner := TextComplete(env, RoundHandled(env, c, question), cache, None, false, fuel - 1);
      && out.client == inner.client
      && (inner.reply.Text? ==> out.reply == Text(Content(FirstCycle(env, c, Some(question)))))
  {
    var key := env.cacheKey(c.request, Some(question));
    var cy := RunCycle(env, c, Some(question), false);
    assert cy.answered == c.(request := AddResponse(AddUserContent(c.request, question), cy.acc));
    MissCases(env, c, cache, Some(question), false, fuel);
    AfterReturned(env, cy, cache, key, fuel);
  }

  /** The function-call round end to end, when the follow-up misses the
      cache and is answered with text: the question, the assistant's
      function call, the function's result and the follow-up reply are
      appended in that order, and the reply is the first cycle's content. */
  lemma FunctionCallRoundTurns(env: Env, c: Client, cache: map<string, string>, question: string, fuel: nat)
    requires Truthy(Some(question)) && fuel > 0
    requires env.cacheKey(c.request, Some(question)) !in cache
    requires IsFunctionCall(FirstCycle(env, c, Some(question)))
    requires
      var answered := c.(request := AddResponse(AddUserContent(c.request, question), FirstCycle(env, c, Some(question))));
      Dispatch(env, answered, FirstCycle(env, c, Some(question))).Returned?
    requires env.cacheKey(RoundHandled(env, c, question).request, None) !in cache
    requires !IsFunctionCall(FirstCycle(env, RoundHandled(env, c, question), None))
    ensures
      var f := RoundHandled(env, c, question);
      var out := TextComplete(env, c, cache, Some(question), false, fuel);
      && out.client.request.messages == f.request.messages + [ResponseMessage(FirstCycle(env, f, None))]
      && out.reply == Text(Content(FirstCycle(env, c, Some(question))))
  {
    var f := RoundHandled(env, c, question);
    FunctionCallRound(env, c, cache, question, fuel);
    PlainFollowUp(env, f, cache, fuel - 1);
  }
}

=== FILE: function_definitions.dfy ===
/** `FunctionDefinitionGenerator`: the function definition sent to the
    model for a registered callback. Reflection and attributes are replaced
    by an explicit record of what they would report. */
module FunctionDefinitions {
  import opened Base
  import opened Json
  import opened Strings

  /** The `#[AiFunction]` attribute of a callback. */
  datatype AiFunction = AiFunction(desc: string, name: Option<string>)

  /** The `#[AiParam]` attribute of a parameter. */
  datatype AiParam = AiParam(desc: string, jsonType: Option<string>)

  /** One declared parameter, as reflection reports it. `default` is the
      value `getDefaultValue` returns, and `None` when reflection has none
      to give: a variadic `...$rest` is optional but has no default. */
  datatype Param = Param(name: string, optional: bool, default: Option<Value>, aiParam: Option<AiParam>)

  /** A callback as reflection reports it; `body` stands for the code it
      runs, which the model does not interpret. PHP forbids two parameters
      with the same name. */
  datatype Callable = Callable(
    name: string,
    docComment: Option<string>,
    aiFunction: Option<AiFunction>,
    params: seq<Param>,
    body: nat)

  datatype Property = Property(name: string, jsonType: string, description: string)

  /** `properties`: PHP sends an empty object instead of an empty list. */
  datatype Properties = EmptyObject | Listed(entries: seq<Property>)

  datatype Parameters = Parameters(jsonType: string, properties: Properties, required: seq<string>)

  datatype FunctionDefinition = FunctionDefinition(name: string, description: string, parameters: Parameters)

  function PropertyOf(p: Param): Property {
    match p.aiParam
    case Some(attr) => Property(p.name, attr.jsonType.GetOr("string"), attr.desc)
    case None => Property(p.name, "string", "")
  }

  function ParamNames(params: seq<Param>): (names: seq<string>)
    ensures |names| == |params|
    ensures forall i :: 0 <= i < |params| ==> names[i] == params[i].name
  {
    seq(|params|, i requires 0 <= i < |params| => params[i].name)
  }

  /** The names of the non-optional parameters, in declaration order. */
  function RequiredNames(params: seq<Param>): (names: seq<string>)
    ensures forall n :: n in names <==> exists i :: 0 <= i < |params| && !params[i].optional && params[i].name == n
    ensures IsSubseq(names, ParamNames(params))
  {
    if |params| == 0 then []
    else
      var rest := RequiredNames(params[1..]);
      assert ParamNames(params)[1..] == ParamNames(params[1..]);
      assert forall i :: 1 <= i < |params| ==> params[1..][i - 1] == params[i];
      if params[0].optional then
        SubseqCons(params[0].name, rest, ParamNames(params[1..]));
        assert ParamNames(params) == [params[0].name] + ParamNames(params[1..]);
        rest
      else
        SubseqCons(params[0].name, rest, ParamNames(params[1..]));
        assert ParamNames(params) == [params[0].name] + ParamNames(params[1..]);
        [params[0].name] + rest
  }

  /** The name a callback is registered and advertised under: the
      `AiFunction` name when set, else the reflected name. */
  function RegisteredName(c: Callable): string {
    match c.aiFunction
    case Some(attr) => attr.name.GetOr(c.name)
    case None => c.name
  }

  /** `getFunctionDefinition`. */
  function Generate(c: Callable): (def: FunctionDefinition)
    ensures def.name == RegisteredName(c)
    ensures def.name == (if c.aiFunction.Some? && c.aiFunction.value.name.Some? then c.aiFunction.value.name.value else c.name)
    ensures c.aiFunction.Some? ==> def.description == c.aiFunction.value.desc
    ensures c.aiFunction.None? ==> def.description == c.docComment.GetOr("")
    ensures def.parameters.jsonType == "object"
    ensures def.parameters.properties.EmptyObject? <==> |c.params| == 0
    ensures def.parameters.properties.Listed? ==> |def.parameters.properties.entries| == |c.params|
    ensures def.parameters.properties.Listed? ==> forall i :: 0 <= i < |c.params| ==>
      var p, e := c.params[i], def.parameters.properties.entries[i];
      && e.name == p.name
      && e.jsonType == (if p.aiParam.Some? && p.aiParam.value.jsonType.Some? then p.aiParam.value.jsonType.value else "string")
      && e.description == (if p.aiParam.Some? then p.aiParam.value.desc else "")
    ensures forall n :: n in def.parameters.required <==>
      exists i :: 0 <= i < |c.params| && !c.params[i].optional && c.params[i].name == n
    ensures IsSubseq(def.parameters.required, ParamNames(c.params))
    ensures |c.params| == 0 ==> def.parameters.required == []
  {
    var name := RegisteredName(c);
    var description := match c.aiFunction
      case Some(attr) => attr.desc
      case None => c.docComment.GetOr("");
    var props := seq(|c.params|, i requires 0 <= i < |c.params| => PropertyOf(c.params[i]));
    assert forall i :: 0 <= i < |c.params| ==> props[i] == PropertyOf(c.params[i]);
    var properties := if |props| == 0 then EmptyObject else Listed(props);
    FunctionDefinition(name, description, Parameters("object", properties, RequiredNames(c.params)))
  }
}

=== FILE: job_description.dfy ===
/** `JobDescription`: a prompt assembled from tagged context and input
    blocks followed by free-text rules. */
module JobDescriptions {

  datatype JobDescription = JobDescription(data: string, rules: string)

  /** A fresh description: both parts empty. */
  function New(): (j: JobDescription)
    ensures j.data == "" && j.rules == ""
  {
    JobDescription("", "")
  }

  /** The block `addContext`/`addInput` appends for `tag`. */
  function Block(tag: string, text: string): string {
    "\n<" + tag + ">\n" + text + "\n</" + tag + ">\n"
  }

  /** The shared step of `addContext` and `addInput`: append the block for
      `tag` to the data, leaving the rules alone. */
  function AddBlock(j: JobDescription, tag: string, text: string): (j': JobDescription)
    ensures j'.data == j.data + Block(tag, text) && j'.rules == j.rules
    ensures |j'.data| == |j.data| + |text| + 2 * |tag| + 9
  {
    j.(data := j.data + "\n" + "<" + tag + ">" + "\n" + text + "\n" + "</" + tag + ">" + "\n")
  }

  /** `addContext`: a `CONTEXT` block. */
  function AddContext(j: JobDescription, context: string): (j': JobDescription)
    ensures j'.data == j.data + Block("CONTEXT", context) && j'.rules == j.rules
  {
    AddBlock(j, "CONTEXT", context)
  }

  /** `addInput`: an `INPUT` block. */
  function AddInput(j: JobDescription, input: string): (j': JobDescription)
    ensures j'.data == j.data + Block("INPUT", input) && j'.rules == j.rules
  {
    AddBlock(j, "INPUT", input)
  }

  /** `addRule`: rules are concatenated without a separator. */
  function AddRule(j: JobDescription, rule: string): (j': JobDescription)
    ensures j'.rules == j.rules + rule && j'.data == j.data
  {
    j.(rules := j.rules + rule)
  }

  /** `__toString`: the data, one line feed, the rules. */
  function Render(j: JobDescription): (r: string)
    ensures |r| == |j.data| + 1 + |j.rules|
    ensures r[..|j.data|] == j.data && r[|j.data|] == '\n' && r[|j.data| + 1..] == j.rules
  {
    j.data + "\n" + j.rules
  }

  /** One call on a description. */
  datatype Op = Context(text: string) | Input(text: string) | Rule(text: string)

  function Apply(j: JobDescription, op: Op): JobDescription {
    match op
    case Context(t) => AddContext(j, t)
    case Input(t) => AddInput(j, t)
    case Rule(t) => AddRule(j, t)
  }

  /** A sequence of calls on a fresh description. */
  function Build(ops: seq<Op>): JobDescription {
    if |ops| == 0 then New() else Apply(Build(ops[..|ops| - 1]), ops[|ops| - 1])
  }

  /** The blocks of the context and input calls, in call order. */
  function Blocks(ops: seq<Op>): string {
    if |ops| == 0 then ""
    else Blocks(ops[..|ops| - 1]) + match ops[|ops| - 1]
      case Context(t) => Block("CONTEXT", t)
      case Input(t) => Block("INPUT", t)
      case Rule(_) => ""
  }

  /** The texts of the rule calls, in call order. */
  function Rules(ops: seq<Op>): string {
    if |ops| == 0 then ""
    else Rules(ops[..|ops| - 1]) + match ops[|ops| - 1]
      case Rule(t) => t
      case _ => ""
  }

  /** Whatever the interleaving of calls, the prompt is every block in
      order, one line feed, then every rule in order. */
  lemma {:induction false} BuildRenders(ops: seq<Op>)
    ensures Build(ops).data == Blocks(ops) && Build(ops).rules == Rules(ops)
    ensures Render(Build(ops)) == Blocks(ops) + "\n" + Rules(ops)
  {
    if |ops| > 0 {
      BuildRenders(ops[..|ops| - 1]);
    }
  }

  /** A fresh description renders as a single line feed. */
  lemma FreshRender()
    ensures Render(New()) == "\n"
  {
  }

  /** A rule and a block commute: adding a rule before or after a context
      block yields the same prompt. */
  lemma RuleCommutes(j: JobDescription, rule: string, context: string)
    ensures Render(AddContext(AddRule(j, rule), context)) == Render(AddRule(AddContext(j, context), rule))
  {
  }
}

=== FILE: job_template.dfy ===
/** `JobTemplate`: a template file split into a system section and user
    sections, whose `{{key}}` placeholders are filled from a data map or a
    loader in one left-to-right pass. */
module JobTemplates {
  import opened Base
  import opened Strings

  /** A loaded template: the file name, the sections, the data set by
      `setData` (null entries as `None`) and the optional data loader. */
  datatype Template = Template(
    fileName: string,
    parts: seq<string>,
    data: map<string, Option<string>>,
    loader: Option<string -> string>)

  const SectionSeparator: string := "\n---\n"

  /** `loadTemplate`: the sections between separators; a file without a
      separator becomes a user section after an empty system section. */
  function LoadTemplate(t: Template, fileName: string, contents: string): (t': Template)
    ensures |t'.parts| >= 2
    ensures t'.fileName == fileName && t'.data == t.data && t'.loader == t.loader
    ensures Contains(contents, SectionSeparator) ==> t'.parts == Split(contents, SectionSeparator)
    ensures !Contains(contents, SectionSeparator) ==> t'.parts == ["", contents]
    ensures Join(t'.parts, SectionSeparator) == (if Contains(contents, SectionSeparator) then contents else SectionSeparator + contents)
  {
    var parts := Split(contents, SectionSeparator);
    var parts' := if |parts| < 2 then [""] + parts else parts;
    assert |parts| < 2 ==> parts' == ["", contents];
    Template(fileName, parts', t.data, t.loader)
  }

  /** `new JobTemplate($file)`: no data and no loader yet. */
  function New(fileName: string, contents: string): (t: Template)
    ensures |t.parts| >= 2 && t.fileName == fileName
    ensures t.data == map[] && t.loader.None?
  {
    LoadTemplate(Template(fileName, [], map[], None), fileName, contents)
  }

  function SetData(t: Template, data: map<string, Option<string>>): (t': Template)
    ensures t'.data == data && t'.parts == t.parts && t'.fileName == t.fileName && t'.loader == t.loader
  {
    t.(data := data)
  }

  function SetDataLoader(t: Template, loader: string -> string): (t': Template)
    ensures t'.loader == Some(loader) && t'.parts == t.parts && t'.fileName == t.fileName && t'.data == t.data
  {
    t.(loader := Some(loader))
  }

  predicate IsKey(k: string) {
    |k| > 0 && forall i :: 0 <= i < |k| ==> IsWordChar(k[i])
  }

  /** The length of the longest run of key characters starting at `i`. */
  function KeyRun(s: string, i: nat): (n: nat)
    requires i <= |s|
    decreases |s| - i
    ensures i + n <= |s|
    ensures forall j :: i <= j < i + n ==> IsWordChar(s[j])
    ensures i + n < |s| ==> !IsWordChar(s[i + n])
  {
    if i < |s| && IsWordChar(s[i]) then 1 + KeyRun(s, i + 1) else 0
  }

  /** A placeholder found at some index: its key and the index after it. */
  datatype Placeholder = Placeholder(key: string, end: nat)

  /** The regex `\{{([a-zA-Z0-9_]+)\}\}` matched at the start of `u`: two
      opening braces, a non-empty key run (maximal, since braces are not
      key characters), two closing braces; `end` is the match's length. */
  function MatchAt(u: string): (p: Option<Placeholder>)
    ensures p.Some? ==> 4 < p.value.end <= |u| && IsKey(p.value.key)
  {
    if 1 < |u| && u[0] == '{' && u[1] == '{' then
      var n := KeyRun(u, 2);
      if n > 0 && n + 3 < |u| && u[n + 2] == '}' && u[n + 3] == '}' then
        Some(Placeholder(u[2..n + 2], n + 4))
      else
        None
    else
      None
  }

  /** The regex matched at index `i` of `s`; `end` is the index after it. */
  function PlaceholderAt(s: string, i: nat): (p: Option<Placeholder>)
    requires i <= |s|
    ensures p.Some? ==> i + 4 < p.value.end <= |s| && IsKey(p.value.key)
  {
    match MatchAt(s[i..])
    case Some(m) => Some(Placeholder(m.key, i + m.end))
    case None => None
  }

  /** A match covers exactly `{{key}}`. */
  lemma PlaceholderText(s: string, i: nat)
    requires i <= |s| && PlaceholderAt(s, i).Some?
    ensures s[i..PlaceholderAt(s, i).value.end] == "{{" + PlaceholderAt(s, i).value.key + "}}"
  {
    var u := s[i..];
    var e := MatchAt(u).value.end - 2;
    assert u[..e + 2] == [u[0], u[1]] + u[2..e] + [u[e], u[e + 1]];
    assert s[i..i + e + 2] == u[..e + 2];
  }

  /** A run of `m` key characters ended by a non-key character or the end
      of the text is the maximal run. */
  lemma {:induction false} KeyRunOf(s: string, i: nat, m: nat)
    requires i + m <= |s|
    requires forall j :: i <= j < i + m ==> IsWordChar(s[j])
    requires i + m < |s| ==> !IsWordChar(s[i + m])
    decreases m
    ensures KeyRun(s, i) == m
  {
    if m > 0 {
      KeyRunOf(s, i + 1, m - 1);
    }
  }

  /** A text starting with `{{key}}` matches with exactly that key. */
  lemma MatchFound(u: string, k: string)
    requires IsKey(k) && |k| + 4 <= |u| && u[..|k| + 4] == "{{" + k + "}}"
    ensures MatchAt(u) == Some(Placeholder(k, |k| + 4))
  {
    var w := u[..|k| + 4];
    assert u[0] == w[0] == '{' && u[1] == w[1] == '{';
    forall j | 2 <= j < 2 + |k|
      ensures IsWordChar(u[j])
    {
      assert u[j] == w[j] == k[j - 2];
    }
    assert u[2 + |k|] == w[2 + |k|] == '}';
    assert u[3 + |k|] == w[3 + |k|] == '}';
    KeyRunOf(u, 2, |k|);
    assert u[2..2 + |k|] == w[2..2 + |k|] == k;
  }

  /** Wherever the text holds `{{key}}` the regex matches it, with exactly
      that key: no placeholder is missed. */
  lemma PlaceholderFound(s: string, i: nat, k: string)
    requires IsKey(k) && i + |k| + 4 <= |s| && s[i..i + |k| + 4] == "{{" + k + "}}"
    ensures PlaceholderAt(s, i) == Some(Placeholder(k, i + |k| + 4))
  {
    var u := s[i..];
    assert u[..|k| + 4] == s[i..i + |k| + 4];
    MatchFound(u, k);
  }

  /** The message of a key neither the data nor a loader supplies. */
  function NotFoundMessage(key: string, section: string, fileName: string): string {
    "Key '" + key + "' not found in template. (Section: " + section + " in file: " + fileName + ")"
  }

  /** A key the template can fill: set and not null in the data, or any
      key when a loader is set. */
  predicate Supplies(t: Template, key: string) {
    (key in t.data && t.data[key].Some?) || t.loader.Some?
  }

  /** The replacement callback: the data entry, else the loader's answer,
      else the exception. */
  function Resolve(t: Template, key: string, section: string): (r: Result<string>)
    ensures r.Ok? <==> Supplies(t, key)
    ensures key in t.data && t.data[key].Some? ==> r == Ok(t.data[key].value)
    ensures !(key in t.data && t.data[key].Some?) && t.loader.Some? ==> r == Ok(t.loader.value(key))
    ensures r.Err? ==> r.error == InvalidArgument(NotFoundMessage(key, section, t.fileName))
  {
    if key in t.data && t.data[key].Some? then Ok(t.data[key].value)
    else if t.loader.Some? then Ok(t.loader.value(key))
    else Err(InvalidArgument(NotFoundMessage(key, section, t.fileName)))
  }

  /** `preg_replace_callback` from index `i`: each placeholder found
      scanning left to right is replaced by its resolved value, scanning
      resumes after it, and the first failing key's exception propagates. */
  function ParseFrom(t: Template, s: string, i: nat, section: string): Result<string>
    requires i <= |s|
    decreases |s| - i
  {
    if i == |s| then Ok("")
    else match PlaceholderAt(s, i)
      case Some(p) => Replaced(Resolve(t, p.key, section), ParseFrom(t, s, p.end, section))
      case None => Prepend([s[i]], ParseFrom(t, s, i + 1, section))
  }

  /** A rendering with `prefix` put in front; an exception passes through. */
  function Prepend(prefix: string, r: Result<string>): Result<string> {
    if r.Ok? then Ok(prefix + r.value) else r
  }

  /** A placeholder's resolved value ahead of the rest's rendering; the
      placeholder's exception comes first. */
  function Replaced(v: Result<string>, rest: Result<string>): Result<string> {
    if v.Err? then Err(v.error) else Prepend(v.value, rest)
  }

  /** The keys of the placeholders found from index `i`, in order. */
  function KeysFrom(s: string, i: nat): seq<string>
    requires i <= |s|
    decreases |s| - i
  {
    if i == |s| then []
    else match PlaceholderAt(s, i)
      case Some(p) => [p.key] + KeysFrom(s, p.end)
      case None => KeysFrom(s, i + 1)
  }

  /** `_parseSection`. */
  function ParseSection(t: Template, s: string, section: string): Result<string> {
    ParseFrom(t, s, 0, section)
  }

  /** `keys[j]` is the first key the template does not supply. */
  predicate FirstMissing(t: Template, keys: seq<string>, j: nat) {
    j < |keys| && !Supplies(t, keys[j]) && forall m :: 0 <= m < j ==> Supplies(t, keys[m])
  }

  lemma FirstMissingCons(t: Template, key: string, rest: seq<string>, j: nat)
    requires Supplies(t, key) && FirstMissing(t, rest, j)
    ensures FirstMissing(t, [key] + rest, j + 1) && ([key] + rest)[j + 1] == rest[j]
  {
    var keys := [key] + rest;
    forall m | 0 <= m < j + 1
      ensures Supplies(t, keys[m])
    {
      if m > 0 {
        assert keys[m] == rest[m - 1];
      }
    }
  }

  /** Rendering fails exactly when some placeholder's key is not supplied,
      and then with the exception for the first such key. */
  lemma {:induction false} ParseFromOk(t: Template, s: string, i: nat, section: string)
    requires i <= |s|
    decreases |s| - i
    ensures ParseFrom(t, s, i, section).Ok? <==> forall k :: k in KeysFrom(s, i) ==> Supplies(t, k)
    ensures ParseFrom(t, s, i, section).Err? ==> exists j: nat :: (FirstMissing(t, KeysFrom(s, i), j)
      && ParseFrom(t, s, i, section).error == InvalidArgument(NotFoundMessage(KeysFrom(s, i)[j], section, t.fileName)))
  {
    if i < |s| {
      match PlaceholderAt(s, i)
      case Some(p) =>
        ParseFromOk(t, s, p.end, section);
        var rest := KeysFrom(s, p.end);
        assert KeysFrom(s, i) == [p.key] + rest;
        if !Supplies(t, p.key) {
          assert FirstMissing(t, KeysFrom(s, i), 0);
        } else if ParseFrom(t, s, p.end, section).Err? {
          var j: nat :| FirstMissing(t, rest, j)
            && ParseFrom(t, s, p.end, section).error == InvalidArgument(NotFoundMessage(rest[j], section, t.fileName));
          FirstMissingCons(t, p.key, rest, j);
        }
      case None =>
        ParseFromOk(t, s, i + 1, section);
    }
  }

  /** Text without placeholders comes back unchanged. */
  lemma {:induction false} NoPlaceholdersUnchanged(t: Template, s: string, i: nat, section: string)
    requires i <= |s|
    requires KeysFrom(s, i) == []
    decreases |s| - i
    ensures ParseFrom(t, s, i, section) == Ok(s[i..])
  {
    if i < |s| {
      match PlaceholderAt(s, i)
      case Some(p) =>
        assert false;
      case None =>
        assert KeysFrom(s, i) == KeysFrom(s, i + 1);
        NoPlaceholdersUnchanged(t, s, i + 1, section);
        assert ParseFrom(t, s, i, section) == Ok([s[i]] + s[i + 1..]);
        assert s[i..] == [s[i]] + s[i + 1..];
    } else {
      assert ParseFrom(t, s, i, section) == Ok("");
      assert s[i..] == "";
    }
  }

  /** Key runs read past the end of `a` only into `c`, and stop at once
      when `c` starts with a non-key character. */
  lemma {:induction false} KeyRunPrefix(a: string, c: string, j: nat)
    requires j <= |a| && |c| > 0 && !IsWordChar(c[0])
    decreases |a| - j
    ensures KeyRun(a + c, j) == KeyRun(a, j)
  {
    if j < |a| {
      assert (a + c)[j] == a[j];
      KeyRunPrefix(a, c, j + 1);
    } else {
      assert (a + c)[j] == c[0];
    }
  }

  /** A non-empty text followed by `{{` matches at its start as the text
      alone does, since the braces end any key run and are not closing
      braces. */
  lemma MatchPrefix(u: string, c: string)
    requires |u| > 0 && |c| >= 2 && c[0] == '{' && c[1] == '{'
    ensures MatchAt(u + c) == MatchAt(u)
  {
    var v := u + c;
    if |u| >= 2 {
      assert v[0] == u[0] && v[1] == u[1];
      KeyRunPrefix(u, c, 2);
      var n := KeyRun(u, 2);
      if n + 3 < |u| {
        assert v[n + 2] == u[n + 2] && v[n + 3] == u[n + 3];
        assert v[2..n + 2] == u[2..n + 2];
      } else if n + 3 == |u| {
        assert v[n + 3] == c[0];
      } else {
        assert v[n + 2] == c[0];
      }
    } else {
      assert v[1] == c[0] && v[2] == c[1];
      assert KeyRun(v, 2) == 0;
    }
  }

  /** A text followed by `{{`: every match starting inside the text is the
      match the text alone has there. */
  lemma PlaceholderPrefix(a: string, c: string, i: nat)
    requires i < |a| && |c| >= 2 && c[0] == '{' && c[1] == '{'
    ensures PlaceholderAt(a + c, i) == PlaceholderAt(a, i)
  {
    assert (a + c)[i..] == a[i..] + c;
    MatchPrefix(a[i..], c);
  }

  /** Matches in the suffix `s[n..]` do not depend on what precedes it:
      they move by `n`. */
  lemma PlaceholderDrop(s: string, n: nat, j: nat)
    requires n + j <= |s|
    ensures PlaceholderAt(s, n + j)
      == if PlaceholderAt(s[n..], j).Some? then Some(Placeholder(PlaceholderAt(s[n..], j).value.key, n + PlaceholderAt(s[n..], j).value.end))
         else None
  {
    assert s[n..][j..] == s[n + j..];
  }

  /** One step of `ParseFrom` at a character no placeholder starts at. */
  lemma ParseFromPlain(t: Template, s: string, i: nat, section: string)
    requires i < |s| && PlaceholderAt(s, i).None?
    ensures ParseFrom(t, s, i, section) == Prepend([s[i]], ParseFrom(t, s, i + 1, section))
  {
  }

  /** One step of `ParseFrom` at a placeholder. */
  lemma ParseFromMatch(t: Template, s: string, i: nat, section: string)
    requires i < |s| && PlaceholderAt(s, i).Some?
    ensures var p := PlaceholderAt(s, i).value;
      ParseFrom(t, s, i, section) == Replaced(Resolve(t, p.key, section), ParseFrom(t, s, p.end, section))
  {
  }

  /** `ParseFromMatch` for a placeholder given by its key and end. */
  lemma ParseFromAt(t: Template, s: string, i: nat, key: string, e: nat, section: string)
    requires i < |s| && e <= |s| && PlaceholderAt(s, i) == Some(Placeholder(key, e))
    ensures ParseFrom(t, s, i, section) == Replaced(Resolve(t, key, section), ParseFrom(t, s, e, section))
  {
    ParseFromMatch(t, s, i, section);
  }

  /** One step of `ParseFrom` at a placeholder of the suffix `s[n..]`,
      taken in `s` itself. */
  lemma ParseFromMoved(t: Template, s: string, n: nat, j: nat, key: string, e: nat, section: string)
    requires n + j < |s| && n + e <= |s| && PlaceholderAt(s[n..], j) == Some(Placeholder(key, e))
    ensures ParseFrom(t, s, n + j, section) == Replaced(Resolve(t, key, section), ParseFrom(t, s, n + e, section))
  {
    PlaceholderMoved(s, n, j, key, e);
    ParseFromAt(t, s, n + j, key, n + e, section);
  }

  /** `PlaceholderDrop` for a placeholder given by its key and end. */
  lemma PlaceholderMoved(s: string, n: nat, j: nat, key: string, e: nat)
    requires n + j <= |s| && PlaceholderAt(s[n..], j) == Some(Placeholder(key, e))
    ensures PlaceholderAt(s, n + j) == Some(Placeholder(key, n + e))
  {
    PlaceholderDrop(s, n, j);
  }

  /** Two texts with no placeholder at the current indices, the same
      character there and the same rendering after it render alike. */
  lemma SamePlainStep(t: Template, s: string, i: nat, u: string, j: nat, section: string)
    requires i < |s| && j < |u| && s[i] == u[j]
    requires PlaceholderAt(s, i).None? && PlaceholderAt(u, j).None?
    requires ParseFrom(t, s, i + 1, section) == ParseFrom(t, u, j + 1, section)
    ensures ParseFrom(t, s, i, section) == ParseFrom(t, u, j, section)
  {
    ParseFromPlain(t, s, i, section);
    ParseFromPlain(t, u, j, section);
  }

  /** The shift at a character of `s[n..]` no placeholder starts at. */
  lemma DropPlainStep(t: Template, s: string, n: nat, j: nat, section: string)
    requires n + j < |s| && PlaceholderAt(s[n..], j).None?
    requires ParseFrom(t, s, n + j + 1, section) == ParseFrom(t, s[n..], j + 1, section)
    ensures ParseFrom(t, s, n + j, section) == ParseFrom(t, s[n..], j, section)
  {
    PlaceholderDrop(s, n, j);
    assert s[n + j] == s[n..][j];
    SamePlainStep(t, s, n + j, s[n..], j, section);
  }

  /** The shift at a placeholder of `s[n..]`. */
  lemma DropMatchStep(t: Template, s: string, n: nat, j: nat, key: string, e: nat, section: string)
    requires n + j < |s| && n + e <= |s|
    requires PlaceholderAt(s[n..], j) == Some(Placeholder(key, e))
    requires ParseFrom(t, s, n + e, section) == ParseFrom(t, s[n..], e, section)
    ensures ParseFrom(t, s, n + j, section) == ParseFrom(t, s[n..], j, section)
  {
    ParseFromMoved(t, s, n, j, key, e, section);
    ParseFromAt(t, s[n..], j, key, e, section);
  }

  /** Rendering the suffix `s[n..]` of a text from any index inside it
      ignores the text before it. */
  lemma {:induction false} ParseFromDrop(t: Template, s: string, n: nat, j: nat, section: string)
    requires n + j <= |s|
    decreases |s| - n - j
    ensures ParseFrom(t, s, n + j, section) == ParseFrom(t, s[n..], j, section)
  {
    if n + j < |s| {
      if PlaceholderAt(s[n..], j).Some? {
        var p := PlaceholderAt(s[n..], j).value;
        ParseFromDrop(t, s, n, p.end, section);
        DropMatchStep(t, s, n, j, p.key, p.end, section);
      } else {
        ParseFromDrop(t, s, n, j + 1, section);
        DropPlainStep(t, s, n, j, section);
      }
    }
  }

  /** Rendering from the start of `y` within `x + y` renders `y` alone. */
  lemma ParseAfter(t: Template, x: string, y: string, section: string)
    ensures ParseFrom(t, x + y, |x|, section) == ParseFrom(t, y, 0, section)
  {
    ParseFromDrop(t, x + y, |x|, 0, section);
    assert (x + y)[|x|..] == y;
    assert |x| + 0 == |x|;
  }

  /** A character no placeholder starts at joins the copied text ahead. */
  lemma PrependStep(t: Template, s: string, i: nat, tail: string, rest: Result<string>, section: string)
    requires i < |s| && PlaceholderAt(s, i).None?
    requires ParseFrom(t, s, i + 1, section) == Prepend(tail, rest)
    ensures ParseFrom(t, s, i, section) == Prepend([s[i]] + tail, rest)
  {
    ParseFromPlain(t, s, i, section);
    if rest.Ok? {
      assert [s[i]] + (tail + rest.value) == [s[i]] + tail + rest.value;
    }
  }

  /** A placeholder-free text followed by `{{` is copied unchanged ahead
      of whatever the rest renders to. */
  lemma {:induction false} PlainPrefix(t: Template, a: string, c: string, i: nat, section: string)
    requires i <= |a| && |c| >= 2 && c[0] == '{' && c[1] == '{'
    requires KeysFrom(a, i) == []
    decreases |a| - i
    ensures ParseFrom(t, a + c, i, section) == Prepend(a[i..], ParseFrom(t, a + c, |a|, section))
  {
    var s := a + c;
    var r := ParseFrom(t, s, |a|, section);
    if i < |a| {
      PlaceholderPrefix(a, c, i);
      assert PlaceholderAt(a, i).None?;
      PlainPrefix(t, a, c, i + 1, section);
      PrependStep(t, s, i, a[i + 1..], r, section);
      assert [s[i]] + a[i + 1..] == a[i..];
    } else {
      assert a[i..] == "";
      if r.Ok? {
        assert a[i..] + r.value == r.value;
      }
    }
  }

  /** The text ahead of a placeholder, when it holds none, renders to itself. */
  lemma SpliceHead(t: Template, a: string, w: string, b: string, section: string)
    requires KeysFrom(a, 0) == [] && |w| >= 2 && w[0] == '{' && w[1] == '{'
    ensures ParseFrom(t, a + w + b, 0, section) == Prepend(a, ParseFrom(t, a + w + b, |a|, section))
  {
    var c := w + b;
    assert a + w + b == a + c;
    PlainPrefix(t, a, c, 0, section);
    assert a[0..] == a;
  }

  /** The placeholder `{{k}}` at index `|a|`, and the text after it. */
  lemma SpliceKey(t: Template, a: string, k: string, b: string, section: string)
    requires IsKey(k)
    ensures var s := a + "{{" + k + "}}" + b;
      ParseFrom(t, s, |a|, section) == Replaced(Resolve(t, k, section), ParseFrom(t, b, 0, section))
  {
    var w := "{{" + k + "}}";
    var x := a + w;
    var s := x + b;
    assert s == a + "{{" + k + "}}" + b;
    assert s[|a|..|a| + |k| + 4] == w;
    PlaceholderFound(s, |a|, k);
    ParseFromMatch(t, s, |a|, section);
    assert |a| + |k| + 4 == |x|;
    ParseAfter(t, x, b, section);
  }

  /** The two steps together: `a`, then the value of `k` or its exception,
      then the rendering of `b`. */
  lemma SpliceChain(t: Template, a: string, k: string, b: string, section: string)
    requires KeysFrom(a, 0) == [] && IsKey(k)
    ensures ParseSection(t, a + "{{" + k + "}}" + b, section)
      == Prepend(a, Replaced(Resolve(t, k, section), ParseSection(t, b, section)))
  {
    var w := "{{" + k + "}}";
    assert a + w + b == a + "{{" + k + "}}" + b;
    SpliceHead(t, a, w, b, section);
    SpliceKey(t, a, k, b, section);
  }

  /** Rendering `a {{k}} b`, where `a` holds no placeholder: the exception
      for `k` when it is not supplied, else the exception `b` raises, else
      `a`, then the value of `k`, then the rendering of `b`. The value is
      not scanned again. */
  lemma Splice(t: Template, a: string, k: string, b: string, section: string)
    requires KeysFrom(a, 0) == [] && IsKey(k)
    ensures Resolve(t, k, section).Err? ==>
      ParseSection(t, a + "{{" + k + "}}" + b, section) == Err(Resolve(t, k, section).error)
    ensures Resolve(t, k, section).Ok? && ParseSection(t, b, section).Err? ==>
      ParseSection(t, a + "{{" + k + "}}" + b, section) == ParseSection(t, b, section)
    ensures Resolve(t, k, section).Ok? && ParseSection(t, b, section).Ok? ==>
      ParseSection(t, a + "{{" + k + "}}" + b, section)
        == Ok(a + Resolve(t, k, section).value + ParseSection(t, b, section).value)
  {
    SpliceChain(t, a, k, b, section);
    var v := Resolve(t, k, section);
    var rb := ParseSection(t, b, section);
    if v.Ok? && rb.Ok? {
      assert a + (v.value + rb.value) == a + v.value + rb.value;
    }
  }

  /** What `_parseSection` raises when handed the null of a missing section.
      PHP's message goes on with ", called in <file> on line <n>", naming
      the installed file; that tail is left off. */
  const NullSection: Thrown := TypeError(ParseSectionName + "(): Argument #1 ($template) must be of type string, null given")

  const ParseSectionName: string := "Lack\\OpenAi\\Helper\\JobTemplate::_parseSection"


  /** `getSystemContent`: section 0; without sections PHP reads a null and
      the string parameter rejects it. */
  function GetSystemContent(t: Template): (r: Result<string>)
    ensures |t.parts| == 0 ==> r.Err? && r.error.TypeError?
    ensures |t.parts| > 0 ==> r == ParseSection(t, t.parts[0], "system")
  {
    if |t.parts| == 0 then Err(NullSection)
    else ParseSection(t, t.parts[0], "system")
  }

  /** `getUserContent($index)`: section `1 + index`; a missing section is
      the same null rejected by the string parameter. */
  function GetUserContent(t: Template, index: int): (r: Result<string>)
    ensures !(0 <= 1 + index < |t.parts|) ==> r.Err? && r.error.TypeError?
    ensures 0 <= 1 + index < |t.parts| ==> r == ParseSection(t, t.parts[1 + index], "user." + IntToString(index))
  {
    if 0 <= 1 + index < |t.parts| then ParseSection(t, t.parts[1 + index], "user." + IntToString(index))
    else Err(NullSection)
  }

  /** A loaded template always has a system section and a first user
      section, so both reads succeed unless a key is missing. */
  lemma LoadedSectionsExist(t: Template, fileName: string, contents: string)
    ensures var t' := LoadTemplate(t, fileName, contents);
      && (GetSystemContent(t').Ok? <==> forall k :: k in KeysFrom(t'.parts[0], 0) ==> Supplies(t', k))
      && (GetUserContent(t', 0).Ok? <==> forall k :: k in KeysFrom(t'.parts[1], 0) ==> Supplies(t', k))
  {
    var t' := LoadTemplate(t, fileName, contents);
    ParseFromOk(t', t'.parts[0], 0, "system");
    ParseFromOk(t', t'.parts[1], 0, "user." + IntToString(0));
  }

  /** Example of `Splice`: values are inserted verbatim and never
      rescanned, so a value that itself looks like a placeholder survives
      the single pass. */
  lemma SinglePass(t: Template)
    requires t.data == map["a" := Some("{{b}}")] && t.loader.None?
    ensures ParseSection(t, "x{{a}}y", "system") == Ok("x{{b}}y")
  {
    assert KeysFrom("x", 0) == [] && IsKey("a");
    Splice(t, "x", "a", "y", "system");
    assert KeysFrom("y", 0) == [];
    NoPlaceholdersUnchanged(t, "y", 0, "system");
    assert "x" + "{{" + "a" + "}}" + "y" == "x{{a}}y";
    assert "x" + "{{b}}" + "y" == "x{{b}}y";
  }

  /** A key with neither data nor a loader is reported with its section
      and file. */
  lemma MissingKeyReported(t: Template)
    requires t.data == map["a" := None] && t.loader.None?
    ensures ParseSection(t, "{{a}}", "user.0") == Err(InvalidArgument(NotFoundMessage("a", "user.0", t.fileName)))
  {
    var s := "{{a}}";
    assert s[0..5] == "{{" + "a" + "}}";
    PlaceholderFound(s, 0, "a");
  }
}

=== FILE: json.dfy ===
/** The values `json_decode($text, true)` can produce and a registered
    callback can return. Encoding and decoding themselves are foreign
    library calls and stay uninterpreted (they are parameters wherever they
    are used). */
module Json {

  datatype Value =
    | Null
    | Bool(b: bool)
    | Number(literal: string)
    | Str(s: string)
    | List(items: seq<Value>)
    | Object(fields: map<string, Value>)
}

=== FILE: json_schema.dfy ===
/** `JsonSchemaGenerator`: the JSON schema of a PHP type string (`int[]`,
    `string|null`, a class name), the description taken from a property's
    doc comment, and the per-property schema of a class. Reflection is
    replaced by explicit property records and a class-exists predicate. */
module JsonSchema {
  import opened Base
  import opened Strings

  /** The schema `parseType` builds. Its JSON keys are `description` and
      `type` for `Typed`; `description`, `type: "array"` and `items` for
      `ArrayOf`; `description` and `oneOf` (no `type`) for `OneOf`. A
      `ClassRef` stands for the decoded schema of the named class, which
      replaces the whole array (the description is dropped). */
  datatype Schema =
    | Typed(description: string, jsonType: string)
    | ArrayOf(description: string, items: Schema)
    | OneOf(description: string, options: seq<Schema>)
    | ClassRef(className: string)

  /** The table of `mapPhpTypeToJsonType`. */
  const TypeMappings: map<string, string> := map[
    "int" := "integer", "bool" := "boolean", "float" := "number", "string" := "string",
    "array" := "array", "object" := "object", "null" := "null"]

  /** The seven primitive JSON-schema types. */
  const JsonTypes: set<string> := {"integer", "boolean", "number", "string", "array", "object", "null"}

  /** `mapPhpTypeToJsonType`: the table entry, or "string" for any other
      type name. */
  function MapType(phpType: string): (r: string)
    ensures r in JsonTypes
    ensures phpType !in TypeMappings ==> r == "string"
  {
    if phpType in TypeMappings then TypeMappings[phpType] else "string"
  }

  /** The mapping, entry by entry. */
  lemma MapTypeTable()
    ensures MapType("int") == "integer" && MapType("bool") == "boolean" && MapType("float") == "number"
    ensures MapType("string") == "string" && MapType("array") == "array"
    ensures MapType("object") == "object" && MapType("null") == "null"
    ensures MapType("integer") == "string" && MapType("") == "string"
  {
  }

  /** A type name maps to itself exactly when it already is one of the four
      JSON types PHP shares the name of; so `integer`, `boolean` and
      `number` do not survive a second mapping. */
  lemma MapTypeFixedPoints(phpType: string)
    ensures MapType(phpType) == phpType <==> phpType in {"string", "array", "object", "null"}
  {
  }

  /** `getFullQualifiedClassName`: the type itself when it is a class,
      else the type inside the namespace when that is a class, else the
      type unchanged. */
  function FullClassName(phpType: string, namespace: string, classExists: string -> bool): (r: string)
    ensures r == phpType || r == namespace + "\\" + phpType
    ensures classExists(phpType) ==> r == phpType
    ensures classExists(r) <==> classExists(phpType) || classExists(namespace + "\\" + phpType)
  {
    if classExists(phpType) then phpType
    else if classExists(namespace + "\\" + phpType) then namespace + "\\" + phpType
    else phpType
  }

  /** `parseType`: an array of the type with every `[]` removed, else one
      schema per `|`-separated alternative, else a class schema or a
      primitive type. Nested schemas get an empty description. */
  function ParseType(phpType: string, description: string, namespace: string, classExists: string -> bool): (s: Schema)
    decreases |phpType|
    ensures s.ArrayOf? <==> Contains(phpType, "[]")
    ensures s.OneOf? <==> !Contains(phpType, "[]") && Contains(phpType, "|")
    ensures s.ArrayOf? || s.OneOf? || s.Typed? ==> s.description == description
    ensures s.ArrayOf? && !s.items.ClassRef? ==> s.items.description == ""
    ensures s.OneOf? ==> |s.options| == |Split(phpType, "|")| >= 2
    ensures s.OneOf? ==> forall k :: 0 <= k < |s.options| && !s.options[k].ClassRef? ==> s.options[k].description == ""
    ensures s.Typed? ==> s.jsonType == MapType(phpType) && !classExists(FullClassName(phpType, namespace, classExists))
    ensures s.ClassRef? ==> s.className == FullClassName(phpType, namespace, classExists) && classExists(s.className)
  {
    if Contains(phpType, "[]") then
      ArrayOf(description, ParseType(RemoveAll(phpType, "[]"), "", namespace, classExists))
    else if Contains(phpType, "|") then
      var types := Split(phpType, "|");
      OneOf(description, seq(|types|, k requires 0 <= k < |types| => ParseType(types[k], "", namespace, classExists)))
    else
      var fullType := FullClassName(phpType, namespace, classExists);
      if classExists(fullType) then ClassRef(fullType) else Typed(description, MapType(phpType))
  }

  /** The alternatives of a union are parsed one by one, in order. */
  lemma ParseTypeOptions(phpType: string, description: string, namespace: string, classExists: string -> bool)
    requires !Contains(phpType, "[]") && Contains(phpType, "|")
    ensures var s := ParseType(phpType, description, namespace, classExists);
      var types := Split(phpType, "|");
      |s.options| == |types| && forall k :: 0 <= k < |types| ==> s.options[k] == ParseType(types[k], "", namespace, classExists)
  {
  }

  /** The item schema of an array type is the type with every `[]`
      removed, parsed with an empty description. */
  lemma ParseTypeItems(phpType: string, description: string, namespace: string, classExists: string -> bool)
    requires Contains(phpType, "[]")
    ensures var s := ParseType(phpType, description, namespace, classExists);
      s.ArrayOf? && s.items == ParseType(RemoveAll(phpType, "[]"), "", namespace, classExists)
  {
  }

  /** The nesting depth of a schema is at most `n`. */
  predicate DepthAtMost(s: Schema, n: nat) {
    n >= 1 &&
    match s
    case ArrayOf(_, items) => DepthAtMost(items, n - 1)
    case OneOf(_, options) => forall k :: 0 <= k < |options| ==> DepthAtMost(options[k], n - 1)
    case _ => true
  }

  /** Without `[]` the recursion stops after one level: the alternatives of
      a union contain neither `[]` nor `|`. */
  lemma {:induction false} PlainDepth(phpType: string, description: string, namespace: string, classExists: string -> bool)
    requires !Contains(phpType, "[]")
    ensures DepthAtMost(ParseType(phpType, description, namespace, classExists), 2)
  {
    if Contains(phpType, "|") {
      var s := ParseType(phpType, description, namespace, classExists);
      var types := Split(phpType, "|");
      ParseTypeOptions(phpType, description, namespace, classExists);
      SplitFree(phpType, "|", "[]");
      forall k | 0 <= k < |s.options|
        ensures DepthAtMost(s.options[k], 1)
      {
        assert s.options[k] == ParseType(types[k], "", namespace, classExists);
      }
    }
  }

  /** With `[]`, one more level: the item type, once its `[]` are removed,
      is parsed like a plain type. */
  lemma {:induction false} ArrayDepth(phpType: string, description: string, namespace: string, classExists: string -> bool)
    requires Contains(phpType, "[]") && !Contains(RemoveAll(phpType, "[]"), "[]")
    ensures DepthAtMost(ParseType(phpType, description, namespace, classExists), 3)
  {
    PlainDepth(RemoveAll(phpType, "[]"), "", namespace, classExists);
  }

  /** Every `[]` is removed at once, so `int[][]` is an array of integers,
      not an array of arrays. */
  lemma ArraysCollapse(description: string, namespace: string, classExists: string -> bool)
    requires !classExists("int") && !classExists(namespace + "\\int")
    ensures ParseType("int[][]", description, namespace, classExists) == ArrayOf(description, Typed("", "integer"))
  {
    assert OccursAt("int[][]", "[]", 3);
    BracketsRemoved();
    PlainInt(namespace, classExists);
  }

  lemma PlainInt(namespace: string, classExists: string -> bool)
    requires !classExists("int") && !classExists(namespace + "\\int")
    ensures ParseType("int", "", namespace, classExists) == Typed("", "integer")
  {
    AbsentFirst("int", "[]");
    AbsentFirst("int", "|");
    assert namespace + "\\" + "int" == namespace + "\\int";
    assert MapType("int") == "integer";
  }

  lemma BracketsRemoved()
    ensures RemoveAll("int[][]", "[]") == "int"
  {
    assert "int[][]"[1..] == "nt[][]";
    assert "int[][]"[2..] == "t[][]";
    assert "int[][]"[3..] == "[][]";
    assert "[][]"[2..] == "[]";
    assert "[]"[2..] == "";
  }

  /** `str_replace(['/**', '*/'], '', ...)`: the opening marker is removed,
      then the closing marker from what remains. */
  function StripMarkers(docComment: string): (r: string)
    ensures |r| <= |docComment|
    ensures !Contains(docComment, "/**") && !Contains(docComment, "*/") ==> r == docComment
  {
    RemoveAll(RemoveAll(docComment, "/**"), "*/")
  }

  /** The first filter: the trimmed line is truthy and starts with `*`. */
  predicate IsCommentLine(line: string) {
    Truthy(Some(Trim(line))) && Trim(line)[0] == '*'
  }

  /** The line matches `@(\w+)`: an `@` followed by a word character. */
  predicate HasTag(line: string) {
    exists i :: 0 <= i < |line| - 1 && line[i] == '@' && IsWordChar(line[i + 1])
  }

  /** `array_filter` with the first predicate; order is kept. */
  function CommentLines(lines: seq<string>): seq<string> {
    if |lines| == 0 then []
    else CommentLines(lines[..|lines| - 1]) + (if IsCommentLine(lines[|lines| - 1]) then [lines[|lines| - 1]] else [])
  }

  /** `array_filter` dropping the lines that carry a tag. */
  function UntaggedLines(lines: seq<string>): seq<string> {
    if |lines| == 0 then []
    else UntaggedLines(lines[..|lines| - 1]) + (if HasTag(lines[|lines| - 1]) then [] else [lines[|lines| - 1]])
  }

  /** `trim(ltrim($line, '* '))`. */
  function StripLine(line: string): (r: string)
    ensures |r| <= |line|
  {
    Trim(TrimLeft(line, {'*', ' '}))
  }

  function StripLines(lines: seq<string>): (r: seq<string>)
    ensures |r| == |lines| && forall k :: 0 <= k < |lines| ==> r[k] == StripLine(lines[k])
  {
    seq(|lines|, k requires 0 <= k < |lines| => StripLine(lines[k]))
  }

  /** The lines of the doc comment that the two filters keep, in order. */
  function DescriptionLines(docComment: string): seq<string> {
    UntaggedLines(CommentLines(Split(StripMarkers(docComment), "\n")))
  }

  /** `extractDescription`. */
  function ExtractDescription(docComment: string): (r: string)
    ensures |r| > 0 ==> r[0] !in Whitespace && r[|r| - 1] !in Whitespace
  {
    Trim(Join(StripLines(DescriptionLines(docComment)), "\n"))
  }

  /** The two filters together keep exactly the comment lines without a
      tag, each as often as it occurs, and never reorder them. */
  lemma {:induction false} KeptLines(lines: seq<string>)
    ensures forall x :: x in UntaggedLines(CommentLines(lines)) <==> x in lines && IsCommentLine(x) && !HasTag(x)
    ensures forall x :: multiset(UntaggedLines(CommentLines(lines)))[x] == if IsCommentLine(x) && !HasTag(x) then multiset(lines)[x] else 0
    ensures IsSubseq(UntaggedLines(CommentLines(lines)), lines)
  {
    CommentLinesKeep(lines);
    UntaggedLinesKeep(CommentLines(lines));
    SubseqTransitive(UntaggedLines(CommentLines(lines)), CommentLines(lines), lines);
  }

  /** `array_filter` on comment lines: exactly the comment lines, each as
      often as it occurs, in order. */
  lemma {:induction false} CommentLinesKeep(lines: seq<string>)
    ensures forall x :: x in CommentLines(lines) <==> x in lines && IsCommentLine(x)
    ensures forall x :: multiset(CommentLines(lines))[x] == if IsCommentLine(x) then multiset(lines)[x] else 0
    ensures IsSubseq(CommentLines(lines), lines)
  {
    if |lines| > 0 {
      var init := lines[..|lines| - 1];
      var last := lines[|lines| - 1];
      CommentLinesKeep(init);
      assert lines == init + [last];
      FilterCountSnoc(CommentLines(init), init, last, IsCommentLine);
      SubseqSnoc(CommentLines(init), init, last, IsCommentLine(last));
    } else {
      assert IsSubseq([], lines);
    }
  }

  /** `array_filter` on untagged lines: exactly the lines without a tag,
      each as often as it occurs, in order. */
  lemma {:induction false} UntaggedLinesKeep(lines: seq<string>)
    ensures forall x :: x in UntaggedLines(lines) <==> x in lines && !HasTag(x)
    ensures forall x :: multiset(UntaggedLines(lines))[x] == if !HasTag(x) then multiset(lines)[x] else 0
    ensures IsSubseq(UntaggedLines(lines), lines)
  {
    if |lines| > 0 {
      var init := lines[..|lines| - 1];
      var last := lines[|lines| - 1];
      UntaggedLinesKeep(init);
      assert lines == init + [last];
      FilterCountSnoc(UntaggedLines(init), init, last, x => !HasTag(x));
      SubseqSnoc(UntaggedLines(init), init, last, !HasTag(last));
    } else {
      assert IsSubseq([], lines);
    }
  }

  /** A line is kept by the first filter exactly when its trimmed text
      starts with `*`; the truthiness test only excludes texts that cannot
      start with `*` anyway. */
  lemma CommentLineIff(line: string)
    ensures IsCommentLine(line) <==> |Trim(line)| > 0 && Trim(line)[0] == '*'
  {
  }

  /** A doc comment whose text, once the markers are removed, is a single
      line not starting with `*` has an empty description: a one-line
      `/** text */` comment describes nothing. */
  lemma {:induction false} OneLineDocIsEmpty(docComment: string)
    requires !Contains(StripMarkers(docComment), "\n")
    requires !IsCommentLine(StripMarkers(docComment))
    ensures DescriptionLines(docComment) == []
    ensures ExtractDescription(docComment) == ""
  {
    var text := StripMarkers(docComment);
    var lines := Split(text, "\n");
    assert lines == [text];
    assert lines[..0] == [];
    assert CommentLines(lines) == CommentLines([]) + [];
  }

  /** PCRE's `\s` outside UTF mode: space, tab, line feed, vertical tab,
      form feed and carriage return. */
  const RegexSpace: set<char> := {' ', '\t', '\n', '\U{000B}', '\U{000C}', '\r'}

  /** The length of the longest run of `\s` characters starting at `i`. */
  function SpaceRun(s: string, i: nat): (n: nat)
    requires i <= |s|
    decreases |s| - i
    ensures i + n <= |s|
    ensures forall j :: i <= j < i + n ==> s[j] in RegexSpace
    ensures i + n < |s| ==> s[i + n] !in RegexSpace
  {
    if i < |s| && s[i] in RegexSpace then 1 + SpaceRun(s, i + 1) else 0
  }

  /** The length of the longest run of `[^\s]` characters starting at `i`. */
  function TokenRun(s: string, i: nat): (n: nat)
    requires i <= |s|
    decreases |s| - i
    ensures i + n <= |s|
    ensures forall j :: i <= j < i + n ==> s[j] !in RegexSpace
    ensures i + n < |s| ==> s[i + n] in RegexSpace
  {
    if i < |s| && s[i] !in RegexSpace then 1 + TokenRun(s, i + 1) else 0
  }

  /** The index just after `@type` or `@var` at `i`. */
  function TagEnd(s: string, i: nat): (r: Option<nat>)
    ensures r.Some? ==> r.value <= |s|
    ensures r.Some? <==> OccursAt(s, "@type", i) || OccursAt(s, "@var", i)
  {
    if OccursAt(s, "@type", i) then Some(i + 5)
    else if OccursAt(s, "@var", i) then Some(i + 4)
    else None
  }

  /** The regex `@(type|var)\s+([^\s]+)` matched at `i`, as its second
      group: the tag, at least one blank, then the maximal run of
      non-blanks (backtracking cannot help: a shorter blank run would leave
      a blank where a non-blank is needed). */
  function TypeTagAt(s: string, i: nat): (r: Option<string>)
    ensures r.Some? ==> |r.value| > 0 && forall j :: 0 <= j < |r.value| ==> r.value[j] !in RegexSpace
    ensures r.Some? ==> TagEnd(s, i).Some?
  {
    match TagEnd(s, i)
    case None => None
    case Some(j) =>
      var k := j + SpaceRun(s, j);
      var n := TokenRun(s, k);
      if k == j || n == 0 then None else Some(s[k..k + n])
  }

  /** The first index at or after `from` where the type regex matches. */
  function FindTypeTag(s: string, from: nat): (r: Option<nat>)
    decreases |s| - from
    ensures r.Some? ==> from <= r.value < |s| && TypeTagAt(s, r.value).Some?
    ensures forall j :: from <= j && (r.None? || j < r.value) ==> TypeTagAt(s, j).None?
  {
    if from >= |s| then None
    else if TypeTagAt(s, from).Some? then Some(from)
    else FindTypeTag(s, from + 1)
  }

  /** `$matches[2] ?? 'string'`: the type named by the first `@type` or
      `@var` tag, else "string". */
  function DocType(docComment: string): (r: string)
    ensures |r| > 0 && forall j :: 0 <= j < |r| ==> r[j] !in RegexSpace
    ensures (forall j :: TypeTagAt(docComment, j).None?) ==> r == "string"
  {
    match FindTypeTag(docComment, 0)
    case None => "string"
    case Some(i) => TypeTagAt(docComment, i).value
  }

  /** The type is the one named by the leftmost matching tag. */
  lemma FirstTypeTag(docComment: string, j: nat)
    requires TypeTagAt(docComment, j).Some?
    requires forall i :: 0 <= i < j ==> TypeTagAt(docComment, i).None?
    ensures DocType(docComment) == TypeTagAt(docComment, j).value
  {
    var found := FindTypeTag(docComment, 0);
  }

  /** `@var int` names the type `int`. */
  lemma VarTag()
    ensures DocType("@var int") == "int"
  {
    var s := "@var int";
    assert !OccursAt(s, "@type", 0) by {
      assert s[1] == 'v' && s[0..5][1] == s[1] && "@type"[1] == 't';
    }
    assert OccursAt(s, "@var", 0) by {
      assert s[0..4] == "@var";
    }
    assert TagEnd(s, 0) == Some(4);
    assert SpaceRun(s, 4) == 1 by {
      assert s[4] == ' ' && s[5] == 'i';
    }
    assert TokenRun(s, 5) == 3 by {
      assert s[5] == 'i' && s[6] == 'n' && s[7] == 't';
    }
    assert TypeTagAt(s, 0) == Some(s[5..8]);
    assert s[5..8] == "int";
    assert FindTypeTag(s, 0) == Some(0);
  }

  /** A property as reflection reports it: its name and its doc comment
      ("" when it has none). */
  datatype Property = Property(name: string, docComment: string)

  /** The schema of one property: the documented type, described by the
      doc comment's text. */
  function PropertySchema(p: Property, namespace: string, classExists: string -> bool): (s: Schema)
    ensures !s.ClassRef? ==> s.description == ExtractDescription(p.docComment)
    ensures s.Typed? ==> s.jsonType == MapType(DocType(p.docComment))
  {
    ParseType(DocType(p.docComment), ExtractDescription(p.docComment), namespace, classExists)
  }

  /** A property without a type tag is a described string, unless a class
      named `string` exists. */
  lemma UntypedProperty(p: Property, namespace: string, classExists: string -> bool)
    requires forall j :: TypeTagAt(p.docComment, j).None?
    requires !classExists("string") && !classExists(namespace + "\\string")
    ensures PropertySchema(p, namespace, classExists) == Typed(ExtractDescription(p.docComment), "string")
  {
    AbsentFirst("string", "[]");
    AbsentFirst("string", "|");
    assert namespace + "\\" + "string" == namespace + "\\string";
    assert MapType("string") == "string";
  }

  /** The names of some properties. */
  function PropertyNames(ps: seq<Property>): set<string> {
    set k | 0 <= k < |ps| :: ps[k].name
  }

  lemma PropertyNamesSnoc(ps: seq<Property>)
    requires |ps| > 0
    ensures PropertyNames(ps) == PropertyNames(ps[..|ps| - 1]) + {ps[|ps| - 1].name}
  {
    var init := ps[..|ps| - 1];
    forall n | n in PropertyNames(ps)
      ensures n in PropertyNames(init) + {ps[|ps| - 1].name}
    {
      var k :| 0 <= k < |ps| && ps[k].name == n;
      if k < |init| {
        assert init[k] == ps[k];
      }
    }
    forall n | n in PropertyNames(init)
      ensures n in PropertyNames(ps)
    {
      var k :| 0 <= k < |init| && init[k].name == n;
      assert ps[k] == init[k];
    }
  }

  /** `$schema['properties'][$name] = ...` over the properties in order,
      with the schema of each property given by `schemaOf`. */
  function PropertiesOf(ps: seq<Property>, schemaOf: Property -> Schema): map<string, Schema> {
    if |ps| == 0 then map[]
    else
      var last := ps[|ps| - 1];
      PropertiesOf(ps[..|ps| - 1], schemaOf)[last.name := schemaOf(last)]
  }

  /** There is an entry for every property name and for nothing else. */
  lemma {:induction false} PropertyKeys(ps: seq<Property>, schemaOf: Property -> Schema)
    ensures PropertiesOf(ps, schemaOf).Keys == PropertyNames(ps)
  {
    if |ps| > 0 {
      PropertyKeys(ps[..|ps| - 1], schemaOf);
      PropertyNamesSnoc(ps);
    }
  }

  /** No later property has the name of property `k`. */
  predicate LastOfName(ps: seq<Property>, k: nat)
    requires k < |ps|
  {
    forall j :: k < j < |ps| ==> ps[j].name != ps[k].name
  }

  /** Each property's entry is its own schema; of two properties with one
      name, the later one's. */
  lemma {:induction false} PropertyEntries(ps: seq<Property>, schemaOf: Property -> Schema)
    ensures forall k :: 0 <= k < |ps| && LastOfName(ps, k) ==>
      ps[k].name in PropertiesOf(ps, schemaOf) && PropertiesOf(ps, schemaOf)[ps[k].name] == schemaOf(ps[k])
  {
    if |ps| > 0 {
      var init, last := ps[..|ps| - 1], ps[|ps| - 1];
      var prev := PropertiesOf(init, schemaOf);
      var next := PropertiesOf(ps, schemaOf);
      assert next == prev[last.name := schemaOf(last)];
      PropertyEntries(init, schemaOf);
      forall k | 0 <= k < |ps| && LastOfName(ps, k)
        ensures ps[k].name in next && next[ps[k].name] == schemaOf(ps[k])
      {
        if k < |init| {
          assert init[k] == ps[k];
          assert LastOfName(init, k) by {
            forall j | k < j < |init|
              ensures init[j].name != init[k].name
            {
              assert init[j] == ps[j];
            }
          }
          assert last.name != ps[k].name;
        }
      }
    }
  }

  /** The object schema `convertToJsonSchema` encodes: the class name as
      title, `type: object`, and one schema per property. */
  datatype ClassSchema = ClassSchema(title: string, properties: map<string, Schema>)

  /** `convertToJsonSchema` over the properties reflection would list. */
  function ConvertToJsonSchema(className: string, ps: seq<Property>, namespace: string, classExists: string -> bool): (c: ClassSchema)
    ensures c.title == className && c.properties.Keys == PropertyNames(ps)
  {
    PropertyKeys(ps, p => PropertySchema(p, namespace, classExists));
    ClassSchema(className, PropertiesOf(ps, p => PropertySchema(p, namespace, classExists)))
  }

  /** Every property of the class, named once, is described by its own doc
      comment and typed by its own tag. */
  lemma ClassProperties(className: string, ps: seq<Property>, namespace: string, classExists: string -> bool)
    ensures forall k :: 0 <= k < |ps| && LastOfName(ps, k) ==>
      ps[k].name in ConvertToJsonSchema(className, ps, namespace, classExists).properties &&
      ConvertToJsonSchema(className, ps, namespace, classExists).properties[ps[k].name] == PropertySchema(ps[k], namespace, classExists)
  {
    PropertyEntries(ps, p => PropertySchema(p, namespace, classExists));
  }
}

=== FILE: response.dfy ===
/** `LackOpenAiResponse`: the text of a completion and the cleaning that
    strips the quotes and code fences models like to wrap answers in. */
module Responses {
  import opened Base
  import opened Strings

  datatype Response = Response(response: string)

  /** `getResponse`. */
  function GetResponse(r: Response): string {
    r.response
  }

  /** `__toString`. */
  function ToString(r: Response): string {
    r.response
  }

  /** Both accessors hand back the raw text untouched. */
  lemma AccessorsAgree(r: Response)
    ensures GetResponse(r) == ToString(r) == r.response
  {
  }

  const TripleQuote: string := "\"\"\""
  const Fence: string := "```"

  /** `preg_replace("/^pat/", "", s)` for a literal `pat`: one occurrence at
      the very start is removed. */
  function StripStart(s: string, pat: string): (r: string)
    ensures pat <= s ==> s == pat + r
    ensures !(pat <= s) ==> r == s
    ensures IsSubseq(r, s)
  {
    if pat <= s then
      DeleteBlock(s, 0, |pat|);
      assert s[..0] + s[|pat|..] == s[|pat|..];
      s[|pat|..]
    else
      DeleteBlock(s, 0, 0);
      assert s[..0] + s[0..] == s;
      s
  }

  /** `preg_replace("/pat$/", "", s)` for a literal `pat` not ending in a
      line feed: PCRE's `$` without `/m` matches at the end and before a
      final line feed, so `pat` is removed in either place. */
  function StripEnd(s: string, pat: string): (r: string)
    requires |pat| > 0 && pat[|pat| - 1] != '\n'
    ensures EndsWith(s, pat) ==> s == r + pat
    ensures !EndsWith(s, pat) && EndsWith(s, pat + "\n") ==> |r| > 0 && r[|r| - 1] == '\n' && s == r[..|r| - 1] + pat + "\n"
    ensures !EndsWith(s, pat) && !EndsWith(s, pat + "\n") ==> r == s
    ensures IsSubseq(r, s)
  {
    if EndsWith(s, pat) then
      DeleteBlock(s, |s| - |pat|, |s|);
      assert s[..|s| - |pat|] + s[|s|..] == s[..|s| - |pat|];
      assert s == s[..|s| - |pat|] + s[|s| - |pat|..];
      s[..|s| - |pat|]
    else if EndsWith(s, pat + "\n") then
      var k := |s| - |pat| - 1;
      DeleteBlock(s, k, |s| - 1);
      assert s[|s| - 1..] == "\n";
      assert s == s[..k] + s[k..|s| - 1] + s[|s| - 1..];
      s[..k] + s[|s| - 1..]
    else
      DeleteBlock(s, 0, 0);
      assert s[..0] + s[0..] == s;
      s
  }

  predicate EndsWith(s: string, pat: string) {
    |pat| <= |s| && s[|s| - |pat|..] == pat
  }

  predicate IsLower(c: char) {
    'a' <= c <= 'z'
  }

  /** The length of the run of lower-case letters starting at `i`. */
  function LowerRun(s: string, i: nat): (n: nat)
    requires i <= |s|
    decreases |s| - i
    ensures i + n <= |s|
    ensures forall j :: i <= j < i + n ==> IsLower(s[j])
    ensures i + n < |s| ==> !IsLower(s[i + n])
  {
    if i < |s| && IsLower(s[i]) then 1 + LowerRun(s, i + 1) else 0
  }

  /** `preg_replace("/^```[a-z]*\/", "", s)`: an opening fence and its
      language tag are removed. */
  function StripOpeningFence(s: string): (r: string)
    ensures Fence <= s ==> |Fence| <= |s| - |r| && r == s[|s| - |r|..]
    ensures Fence <= s ==> forall j :: |Fence| <= j < |s| - |r| ==> IsLower(s[j])
    ensures Fence <= s && |r| > 0 ==> !IsLower(r[0])
    ensures !(Fence <= s) ==> r == s
    ensures IsSubseq(r, s)
  {
    if Fence <= s then
      var e := |Fence| + LowerRun(s, |Fence|);
      DeleteBlock(s, 0, e);
      assert s[..0] + s[e..] == s[e..];
      s[e..]
    else
      DeleteBlock(s, 0, 0);
      assert s[..0] + s[0..] == s;
      s
  }

  /** `preg_replace('/^"/m', "", s)`: a quote is removed wherever a line
      starts (at index 0 or after a line feed of the original text);
      `atLineStart` says whether the first character of `s` starts a line. */
  function LineStartQuotes(s: string, atLineStart: bool): string {
    if |s| == 0 then ""
    else if atLineStart && s[0] == '"' then LineStartQuotes(s[1..], false)
    else [s[0]] + LineStartQuotes(s[1..], s[0] == '\n')
  }

  /** The start pass only deletes. */
  lemma {:induction false} LineStartSubseq(s: string, atLineStart: bool)
    ensures IsSubseq(LineStartQuotes(s, atLineStart), s)
  {
    if |s| > 0 {
      if atLineStart && s[0] == '"' {
        LineStartSubseq(s[1..], false);
      } else {
        LineStartSubseq(s[1..], s[0] == '\n');
        SubseqCons(s[0], LineStartQuotes(s[1..], s[0] == '\n'), s[1..]);
        assert [s[0]] + s[1..] == s;
      }
    }
  }

  /** `preg_replace('/"$/mi', "", s)`: a quote is removed wherever a line
      ends (before a line feed or at the end of the text). */
  function LineEndQuotes(s: string): string {
    if |s| == 0 then ""
    else if s[0] == '"' && (|s| == 1 || s[1] == '\n') then LineEndQuotes(s[1..])
    else [s[0]] + LineEndQuotes(s[1..])
  }

  /** The end pass only deletes. */
  lemma {:induction false} LineEndSubseq(s: string)
    ensures IsSubseq(LineEndQuotes(s), s)
  {
    if |s| > 0 {
      LineEndSubseq(s[1..]);
      if !(s[0] == '"' && (|s| == 1 || s[1] == '\n')) {
        SubseqCons(s[0], LineEndQuotes(s[1..]), s[1..]);
        assert [s[0]] + s[1..] == s;
      }
    }
  }

  /** `getTextCleaned`: trim, strip surrounding triple quotes, strip a code
      fence with its language tag and a closing fence, then strip the quote
      at the start and at the end of every line. Cleaning only deletes. */
  function Clean(r: Response): (text: string)
    ensures IsSubseq(text, r.response)
    ensures |text| <= |r.response|
  {
    var s0 := r.response;
    var s1 := Trim(s0);
    TrimIsSlice(s0);
    var s2 := StripStart(s1, TripleQuote);
    var s3 := StripEnd(s2, TripleQuote);
    var s4 := StripOpeningFence(s3);
    var s5 := StripEnd(s4, Fence);
    var s6 := LineStartQuotes(s5, true);
    var s7 := LineEndQuotes(s6);
    LineStartSubseq(s5, true);
    LineEndSubseq(s6);
    SubseqTransitive(s7, s6, s5);
    SubseqTransitive(s7, s5, s4);
    SubseqTransitive(s7, s4, s3);
    SubseqTransitive(s7, s3, s2);
    SubseqTransitive(s7, s2, s1);
    SubseqTransitive(s7, s1, s0);
    SubseqLength(s7, s0);
    s7
  }

  /** Trimming keeps a contiguous slice, hence a subsequence. */
  lemma TrimIsSlice(s: string)
    ensures exists i, j :: 0 <= i <= j <= |s| && Trim(s) == s[i..j]
    ensures IsSubseq(Trim(s), s)
  {
    TrimSlice(s, Whitespace);
    var i, j :| 0 <= i <= j <= |s| && Trim(s) == s[i..j];
    SliceSubseq(s, i, j);
  }

  /** Trimming any character set from both ends keeps a contiguous
      slice. */
  lemma TrimSlice(s: string, cs: set<char>)
    ensures exists i, j :: 0 <= i <= j <= |s| && TrimRight(TrimLeft(s, cs), cs) == s[i..j]
  {
    var l := TrimLeft(s, cs);
    var r := TrimRight(l, cs);
    var i := |s| - |l|;
    assert l == s[i..|s|] && r == l[0..|r|];
    SliceOfSlice(s, i, |s|, 0, |r|);
    assert r == s[i..i + |r|];
  }

  /** Trimming text that neither starts nor ends with whitespace changes
      nothing. */
  lemma TrimUnchanged(s: string)
    requires |s| > 0 ==> s[0] !in Whitespace && s[|s| - 1] !in Whitespace
    ensures Trim(s) == s
  {
  }

  /** The quote passes leave text without quotes alone. */
  lemma {:induction false} QuoteFree(s: string, atLineStart: bool)
    requires forall i :: 0 <= i < |s| ==> s[i] != '"'
    ensures LineStartQuotes(s, atLineStart) == s
    ensures LineEndQuotes(s) == s
  {
    if |s| > 0 {
      QuoteFree(s[1..], s[0] == '\n');
      assert [s[0]] + s[1..] == s;
    }
  }

  /** Text already clean (no surrounding whitespace, no quote, no
      backtick) comes back unchanged. */
  lemma CleanUnchanged(r: Response)
    requires |r.response| > 0 ==> r.response[0] !in Whitespace && r.response[|r.response| - 1] !in Whitespace
    requires forall i :: 0 <= i < |r.response| ==> r.response[i] != '"' && r.response[i] != '`'
    ensures Clean(r) == r.response
  {
    var s := r.response;
    TrimUnchanged(s);
    if |s| > 0 {
      assert s[0] != '"' && s[0] != '`';
    }
    assert !(TripleQuote <= s) && !(Fence <= s);
    if |s| >= 3 {
      assert s[|s| - 3..][2] == s[|s| - 1];
    }
    if |s| >= 4 {
      assert s[|s| - 4..][2] == s[|s| - 2];
    }
    assert !EndsWith(s, TripleQuote) && !EndsWith(s, TripleQuote + "\n");
    assert !EndsWith(s, Fence) && !EndsWith(s, Fence + "\n");
    assert StripStart(s, TripleQuote) == s;
    assert StripEnd(s, TripleQuote) == s;
    assert StripOpeningFence(s) == s;
    assert StripEnd(s, Fence) == s;
    QuoteFree(s, true);
  }

  /** A line with one leading quote removed. */
  function DropLeadingQuote(line: string): string {
    if |line| > 0 && line[0] == '"' then line[1..] else line
  }

  /** A line with one trailing quote removed. */
  function DropTrailingQuote(line: string): string {
    if |line| > 0 && line[|line| - 1] == '"' then line[..|line| - 1] else line
  }

  function DropLeadingEach(lines: seq<string>): (r: seq<string>)
    ensures |r| == |lines|
  {
    if |lines| == 0 then [] else [DropLeadingQuote(lines[0])] + DropLeadingEach(lines[1..])
  }

  function DropTrailingEach(lines: seq<string>): (r: seq<string>)
    ensures |r| == |lines|
  {
    if |lines| == 0 then [] else [DropTrailingQuote(lines[0])] + DropTrailingEach(lines[1..])
  }

  /** A text that does not contain the one-character string `[c]` holds no
      `c`. */
  lemma NotContainsChar(s: string, c: char)
    requires !Contains(s, [c])
    ensures forall j :: 0 <= j < |s| ==> s[j] != c
  {
    forall j | 0 <= j < |s|
      ensures s[j] != c
    {
      if s[j] == c {
        assert s[j..j + 1] == [c];
        assert OccursAt(s, [c], j);
      }
    }
  }

  /** Where a line starts is decided by the character before. */
  function AfterFlag(a: string, atLineStart: bool): bool {
    if |a| == 0 then atLineStart else a[|a| - 1] == '\n'
  }

  /** The flag the start pass carries past the first character of `a`. */
  function NextFlag(a: string, atLineStart: bool): bool
    requires |a| > 0
  {
    if atLineStart && a[0] == '"' then false else a[0] == '\n'
  }

  /** One step of the start pass on `a + b`. */
  lemma LineStartCons(a: string, b: string, atLineStart: bool)
    requires |a| > 0
    ensures LineStartQuotes(a + b, atLineStart)
         == (if atLineStart && a[0] == '"' then [] else [a[0]]) + LineStartQuotes(a[1..] + b, NextFlag(a, atLineStart))
  {
    assert (a + b)[1..] == a[1..] + b && (a + b)[0] == a[0];
  }

  /** The flag after `a` is the flag after its tail, started one step on. */
  lemma AfterFlagTail(a: string, atLineStart: bool)
    requires |a| > 0
    ensures AfterFlag(a[1..], NextFlag(a, atLineStart)) == AfterFlag(a, atLineStart)
  {
    if |a| > 1 {
      assert a[1..][|a| - 2] == a[|a| - 1];
    }
  }

  lemma {:induction false} LineStartAppend(a: string, b: string, atLineStart: bool)
    ensures LineStartQuotes(a + b, atLineStart) == LineStartQuotes(a, atLineStart) + LineStartQuotes(b, AfterFlag(a, atLineStart))
    decreases |a|
  {
    if |a| == 0 {
      assert a + b == b;
    } else {
      var next := NextFlag(a, atLineStart);
      var head: string := if atLineStart && a[0] == '"' then [] else [a[0]];
      LineStartCons(a, b, atLineStart);
      LineStartAppend(a[1..], b, next);
      AfterFlagTail(a, atLineStart);
      assert head + (LineStartQuotes(a[1..], next) + LineStartQuotes(b, AfterFlag(a, atLineStart)))
          == (head + LineStartQuotes(a[1..], next)) + LineStartQuotes(b, AfterFlag(a, atLineStart));
    }
  }

  /** Within one line the start pass removes at most the leading quote. */
  lemma {:induction false} LineStartOneLine(a: string, atLineStart: bool)
    requires forall j :: 0 <= j < |a| ==> a[j] != '\n'
    ensures LineStartQuotes(a, false) == a
    ensures LineStartQuotes(a, true) == DropLeadingQuote(a)
  {
    if |a| > 0 {
      LineStartOneLine(a[1..], false);
      assert [a[0]] + a[1..] == a;
    }
  }

  lemma {:induction false} LineEndAppend(a: string, b: string)
    requires |b| == 0 || b[0] == '\n'
    ensures LineEndQuotes(a + b) == LineEndQuotes(a) + LineEndQuotes(b)
    decreases |a|
  {
    if |a| == 0 {
      assert a + b == b;
    } else {
      assert (a + b)[1..] == a[1..] + b;
      assert (a + b)[0] == a[0];
      if |a| > 1 {
        assert (a + b)[1] == a[1];
      }
      LineEndAppend(a[1..], b);
    }
  }

  /** Within one line the end pass removes at most the trailing quote. */
  lemma {:induction false} LineEndOneLine(a: string)
    requires forall j :: 0 <= j < |a| ==> a[j] != '\n'
    ensures LineEndQuotes(a) == DropTrailingQuote(a)
  {
    if |a| > 0 {
      LineEndOneLine(a[1..]);
      assert [a[0]] + a[1..] == a;
      if |a| > 1 {
        assert a[1..][..|a[1..]| - 1] == a[1..|a| - 1];
        assert a[..|a| - 1] == [a[0]] + a[1..|a| - 1];
      }
    }
  }

  /** One line, its line feed and the rest: the start pass handles the
      line on its own and the rest as starting a line. */
  lemma LineStartStep(line: string, rest: string)
    requires forall j :: 0 <= j < |line| ==> line[j] != '\n'
    ensures LineStartQuotes(line + ("\n" + rest), true) == DropLeadingQuote(line) + "\n" + LineStartQuotes(rest, true)
  {
    LineStartAppend(line, "\n" + rest, true);
    LineStartOneLine(line, true);
    assert ("\n" + rest)[1..] == rest;
    assert LineStartQuotes("\n" + rest, AfterFlag(line, true)) == "\n" + LineStartQuotes(rest, true);
  }

  /** One line, its line feed and the rest: the end pass handles the line
      on its own and then the rest. */
  lemma LineEndStep(line: string, rest: string)
    requires forall j :: 0 <= j < |line| ==> line[j] != '\n'
    ensures LineEndQuotes(line + ("\n" + rest)) == DropTrailingQuote(line) + "\n" + LineEndQuotes(rest)
  {
    LineEndAppend(line, "\n" + rest);
    LineEndOneLine(line);
    assert ("\n" + rest)[1..] == rest;
    assert LineEndQuotes("\n" + rest) == "\n" + LineEndQuotes(rest);
  }

  /** `implode` of a line before at least one more. */
  lemma JoinCons(x: string, parts: seq<string>, sep: string)
    requires |parts| >= 1
    ensures Join([x] + parts, sep) == x + sep + Join(parts, sep)
  {
    assert ([x] + parts)[1..] == parts;
  }

  /** The first line of a text that holds a line feed, and the rest. */
  lemma SplitFirstLine(s: string, i: nat)
    requires Find(s, "\n") == Some(i)
    ensures i < |s| && s == s[..i] + ("\n" + s[i + 1..])
    ensures Split(s, "\n") == [s[..i]] + Split(s[i + 1..], "\n")
    ensures forall j :: 0 <= j < i ==> s[j] != '\n'
  {
    FirstLineBreak(s, i);
    assert Split(s, "\n") == [s[..i]] + Split(s[i + 1..], "\n");
  }

  lemma FirstLineBreak(s: string, i: nat)
    requires i + 1 <= |s| && s[i..i + 1] == "\n"
    requires forall j :: 0 <= j < i ==> !OccursAt(s, "\n", j)
    ensures s == s[..i] + ("\n" + s[i + 1..])
    ensures forall j :: 0 <= j < i ==> s[j] != '\n'
  {
    assert s[i] == s[i..i + 1][0] == '\n';
    assert s[i..] == "\n" + s[i + 1..];
    assert s == s[..i] + s[i..];
    forall j | 0 <= j < i
      ensures s[j] != '\n'
    {
      assert !OccursAt(s, "\n", j);
      assert s[j..j + 1][0] == s[j];
    }
  }

  /** A text without line feeds is one line. */
  lemma SplitOneLine(s: string)
    requires Find(s, "\n").None?
    ensures Split(s, "\n") == [s]
    ensures forall j :: 0 <= j < |s| ==> s[j] != '\n'
  {
    NotContainsChar(s, '\n');
  }

  /** The `/m` start pass is: split into lines, drop one leading quote from
      each, join again. */
  lemma {:induction false} LineStartByLines(s: string)
    decreases |s|
    ensures LineStartQuotes(s, true) == Join(DropLeadingEach(Split(s, "\n")), "\n")
  {
    match Find(s, "\n")
    case None =>
      SplitOneLine(s);
      LineStartOneLine(s, true);
      assert DropLeadingEach([s]) == [DropLeadingQuote(s)];
    case Some(i) =>
      SplitFirstLine(s, i);
      var line, rest := s[..i], s[i + 1..];
      LineStartStep(line, rest);
      LineStartByLines(rest);
      var parts := Split(rest, "\n");
      assert DropLeadingEach([line] + parts) == [DropLeadingQuote(line)] + DropLeadingEach(parts) by {
        assert ([line] + parts)[1..] == parts;
      }
      JoinCons(DropLeadingQuote(line), DropLeadingEach(parts), "\n");
  }

  /** The `/m` end pass is: split into lines, drop one trailing quote from
      each, join again. */
  lemma {:induction false} LineEndByLines(s: string)
    decreases |s|
    ensures LineEndQuotes(s) == Join(DropTrailingEach(Split(s, "\n")), "\n")
  {
    match Find(s, "\n")
    case None =>
      SplitOneLine(s);
      LineEndOneLine(s);
      assert DropTrailingEach([s]) == [DropTrailingQuote(s)];
    case Some(i) =>
      SplitFirstLine(s, i);
      var line, rest := s[..i], s[i + 1..];
      LineEndStep(line, rest);
      LineEndByLines(rest);
      var parts := Split(rest, "\n");
      assert DropTrailingEach([line] + parts) == [DropTrailingQuote(line)] + DropTrailingEach(parts) by {
        assert ([line] + parts)[1..] == parts;
      }
      JoinCons(DropTrailingQuote(line), DropTrailingEach(parts), "\n");
  }

  /** A quoted one-line answer loses its quotes. */
  lemma QuotedAnswer()
    ensures Clean(Response("\"hi\"")) == "hi"
  {
    var s := "\"hi\"";
    TrimUnchanged(s);
    assert s[1] != TripleQuote[1] && s[0] != Fence[0];
    assert StripStart(s, TripleQuote) == s;
    assert s[|s| - 3..] != TripleQuote && s[|s| - 4..] != TripleQuote + "\n";
    assert StripEnd(s, TripleQuote) == s;
    assert StripOpeningFence(s) == s;
    assert s[|s| - 3..] != Fence && s[|s| - 4..] != Fence + "\n";
    assert StripEnd(s, Fence) == s;
    QuotedAnswerLines();
  }

  lemma QuotedAnswerLines()
    ensures LineEndQuotes(LineStartQuotes("\"hi\"", true)) == "hi"
  {
    assert LineStartQuotes("\"", false) == "\"";
    assert LineStartQuotes("i\"", false) == "i\"";
    assert LineStartQuotes("hi\"", false) == "hi\"";
    assert LineStartQuotes("\"hi\"", true) == "hi\"";
    assert LineEndQuotes("\"") == "";
    assert LineEndQuotes("i\"") == "i";
    assert LineEndQuotes("hi\"") == "hi";
  }
}

=== FILE: stream_response.dfy ===
/** `OpenAiStreamResponse`: folds the deltas of one streamed chat completion
    into the single assistant message `responseFull`. */
module StreamResponse {
  import opened Base
  import opened Json

  /** One streamed delta. `functionCall` is its `function_call` entry when
      that entry is set; `fields` holds every other entry (`role`,
      `content`, ...). Deltas are assumed to keep that split: a `fields`
      map that names `function_call` is not a delta PHP can receive, since
      `addData` sends any set `function_call` entry down its first
      branch. */
  datatype Delta = Delta(functionCall: Option<map<string, string>>, fields: map<string, string>)

  /** `responseFull`: its string entries and its `function_call` sub-array. */
  datatype Accum = Accum(fields: map<string, string>, functionCall: map<string, string>)

  /** The entries every accumulator reachable from `Initial` carries. */
  predicate WellFormed(a: Accum) {
    && "role" in a.fields && a.fields["role"] == "assistant"
    && "content" in a.fields
    && "name" in a.functionCall && "arguments" in a.functionCall
  }

  function Content(a: Accum): string
    requires WellFormed(a)
  {
    a.fields["content"]
  }

  /** `getFunctionName`: exactly the accumulated name. */
  function FunctionName(a: Accum): string
    requires WellFormed(a)
  {
    a.functionCall["name"]
  }

  function ArgumentsText(a: Accum): string
    requires WellFormed(a)
  {
    a.functionCall["arguments"]
  }

  /** `isFunctionCall`. */
  predicate IsFunctionCall(a: Accum)
    requires WellFormed(a)
  {
    FunctionName(a) != ""
  }

  /** The initial `responseFull`. */
  function Initial(): (a: Accum)
    ensures WellFormed(a)
    ensures a.fields.Keys == {"role", "content"} && Content(a) == ""
    ensures a.functionCall.Keys == {"name", "arguments"}
    ensures FunctionName(a) == "" && ArgumentsText(a) == ""
    ensures !IsFunctionCall(a)
  {
    Accum(map["role" := "assistant", "content" := ""], map["name" := "", "arguments" := ""])
  }

  /** `$target[$key] .= $value` for every entry of `d`: appended to an
      entry that exists, inserted as-is otherwise. */
  function Concatenate(target: map<string, string>, d: map<string, string>): map<string, string> {
    map k | k in target.Keys + d.Keys ::
      if k in d then (if k in target then target[k] + d[k] else d[k]) else target[k]
  }

  /** `addData`. */
  function Step(a: Accum, d: Delta): (r: Accum)
    // a function-call delta appends each of its sub-fields and nothing else
    ensures d.functionCall.Some? ==> r.fields == a.fields
    ensures d.functionCall.Some? ==> r.functionCall.Keys == a.functionCall.Keys + d.functionCall.value.Keys
    ensures d.functionCall.Some? ==> forall k :: k in d.functionCall.value ==>
      r.functionCall[k] == (if k in a.functionCall then a.functionCall[k] else "") + d.functionCall.value[k]
    ensures d.functionCall.Some? ==> forall k :: k in a.functionCall && k !in d.functionCall.value ==>
      r.functionCall[k] == a.functionCall[k]
    // any other delta never touches role or the function call
    ensures d.functionCall.None? ==> r.functionCall == a.functionCall
    ensures d.functionCall.None? ==> r.fields.Keys == a.fields.Keys + (d.fields.Keys - {"role"})
    ensures d.functionCall.None? && "role" in a.fields ==> r.fields["role"] == a.fields["role"]
    ensures d.functionCall.None? ==> forall k :: k in d.fields && k != "role" ==>
      r.fields[k] == (if k in a.fields then a.fields[k] + d.fields[k] else d.fields[k])
    ensures d.functionCall.None? ==> forall k :: k in a.fields && (k !in d.fields || k == "role") ==>
      r.fields[k] == a.fields[k]
    // entries only grow
    ensures forall k :: k in a.fields ==> k in r.fields && a.fields[k] <= r.fields[k]
    ensures forall k :: k in a.functionCall ==> k in r.functionCall && a.functionCall[k] <= r.functionCall[k]
    ensures WellFormed(a) ==> WellFormed(r)
  {
    match d.functionCall
    case Some(fc) => a.(functionCall := Concatenate(a.functionCall, fc))
    case None => a.(fields := Concatenate(a.fields, d.fields - {"role"}))
  }

  /** The accumulator after feeding `ds` in order. */
  function Accumulate(ds: seq<Delta>): (r: Accum)
    ensures WellFormed(r)
  {
    if |ds| == 0 then Initial() else Step(Accumulate(ds[..|ds| - 1]), ds[|ds| - 1])
  }

  /** A decoded value the `array` return type of `getFunctionArguments`
      rejects: a boolean, a number or a string. */
  predicate IsScalar(v: Value) {
    v.Bool? || v.Number? || v.Str?
  }

  /** PHP's name for the type of a rejected scalar. A number without a
      fraction or exponent decodes to an int, any other to a float. */
  function ScalarTypeName(v: Value): string
    requires IsScalar(v)
  {
    match v
    case Bool(_) => "bool"
    case Str(_) => "string"
    case Number(literal) =>
      if forall i :: 0 <= i < |literal| ==> literal[i] !in {'.', 'e', 'E'} then "int" else "float"
  }

  /** The `TypeError` PHP raises when `getFunctionArguments` returns a
      value of the named type instead of an array. */
  function ReturnTypeError(typeName: string): (e: Thrown)
    ensures e.TypeError?
  {
    TypeError(ReturnTypePrefix + typeName + " returned")
  }

  const ReturnTypePrefix: string :=
    "Lack\\OpenAi\\Helper\\OpenAiStreamResponse::getFunctionArguments(): Return value must be of type array, "

  /** `json_decode($text, true) ?? []` under the `array` return type of
      `getFunctionArguments`. Invalid JSON and `null` give no arguments. An
      object gives its members by name. A list gives PHP integer keys, which
      no parameter name equals, so it supplies no named argument. A scalar
      fails the return type. */
  function DecodedArguments(d: Option<Value>): (r: Result<map<string, Value>>)
    ensures r.Err? <==> d.Some? && IsScalar(d.value)
    ensures r.Err? ==> r.error == ReturnTypeError(ScalarTypeName(d.value))
    ensures d.Some? && d.value.Object? ==> r == Ok(d.value.fields)
    ensures d.None? || d.value.Null? || d.value.List? ==> r == Ok(map[])
  {
    match d
    case None => Ok(map[])
    case Some(Null) => Ok(map[])
    case Some(Object(fields)) => Ok(fields)
    case Some(List(_)) => Ok(map[])
    case Some(v) => Err(ReturnTypeError(ScalarTypeName(v)))
  }

  /** `getFunctionArguments()`: the accumulated argument text, decoded. */
  function FunctionArguments(a: Accum, decode: string -> Option<Value>): (r: Result<map<string, Value>>)
    requires WellFormed(a)
  {
    DecodedArguments(decode(ArgumentsText(a)))
  }

  /** What a delta contributes to `content`. */
  function ContentFragment(d: Delta): string {
    if d.functionCall.None? && "content" in d.fields then d.fields["content"] else ""
  }

  /** What a delta contributes to the sub-field `key` of `function_call`. */
  function CallFragment(d: Delta, key: string): string {
    if d.functionCall.Some? && key in d.functionCall.value then d.functionCall.value[key] else ""
  }

  /** The in-order concatenation of the content fragments of `ds`. */
  function ContentOf(ds: seq<Delta>): string {
    if |ds| == 0 then "" else ContentOf(ds[..|ds| - 1]) + ContentFragment(ds[|ds| - 1])
  }

  /** The in-order concatenation of the `key` fragments of `ds`. */
  function CallOf(ds: seq<Delta>, key: string): string {
    if |ds| == 0 then "" else CallOf(ds[..|ds| - 1], key) + CallFragment(ds[|ds| - 1], key)
  }

  /** Accumulated content is exactly the in-order concatenation of every
      non-function delta's content fragment. */
  lemma {:induction false} AccumulatedContent(ds: seq<Delta>)
    ensures Content(Accumulate(ds)) == ContentOf(ds)
  {
    if |ds| > 0 {
      AccumulatedContent(ds[..|ds| - 1]);
    }
  }

  /** Accumulated name and arguments are exactly the in-order
      concatenations of the function-call fragments. */
  lemma {:induction false} AccumulatedCall(ds: seq<Delta>)
    ensures FunctionName(Accumulate(ds)) == CallOf(ds, "name")
    ensures ArgumentsText(Accumulate(ds)) == CallOf(ds, "arguments")
  {
    if |ds| > 0 {
      AccumulatedCall(ds[..|ds| - 1]);
    }
  }

  /** A concatenation of fragments is empty iff every fragment is. */
  lemma {:induction false} CallOfEmpty(ds: seq<Delta>, key: string)
    ensures CallOf(ds, key) == "" <==> forall i :: 0 <= i < |ds| ==> CallFragment(ds[i], key) == ""
  {
    if |ds| > 0 {
      CallOfEmpty(ds[..|ds| - 1], key);
      assert forall i :: 0 <= i < |ds| - 1 ==> ds[..|ds| - 1][i] == ds[i];
    }
  }

  /** The stream is a function call iff some delta carried a non-empty name
      fragment. */
  lemma FunctionCallIff(ds: seq<Delta>)
    ensures IsFunctionCall(Accumulate(ds)) <==> exists i :: 0 <= i < |ds| && CallFragment(ds[i], "name") != ""
  {
    AccumulatedCall(ds);
    CallOfEmpty(ds, "name");
  }

  /** Feeding more deltas only extends content, name and arguments. */
  lemma {:induction false} AccumulateGrows(ds: seq<Delta>, more: seq<Delta>)
    ensures Content(Accumulate(ds)) <= Content(Accumulate(ds + more))
    ensures FunctionName(Accumulate(ds)) <= FunctionName(Accumulate(ds + more))
    ensures ArgumentsText(Accumulate(ds)) <= ArgumentsText(Accumulate(ds + more))
  {
    if |more| > 0 {
      var shorter := more[..|more| - 1];
      AccumulateGrows(ds, shorter);
      assert (ds + more)[..|ds + more| - 1] == ds + shorter;
    } else {
      assert ds + more == ds;
    }
  }

  /** Once a function call, always a function call. */
  lemma StaysFunctionCall(ds: seq<Delta>, more: seq<Delta>)
    requires IsFunctionCall(Accumulate(ds))
    ensures IsFunctionCall(Accumulate(ds + more))
  {
    AccumulateGrows(ds, more);
  }
}

=== FILE: strings.dfy ===
/** The PHP string primitives the modelled code relies on (`strpos`,
    `str_contains`, `explode`, `implode`, `str_replace` with an empty
    replacement, `trim`/`ltrim`), each with the contract PHP gives it, plus
    the subsequence relation used to state that cleaning only deletes. */
module Strings {
  import opened Base

  /** `pat` occurs in `s` starting at index `i`. */
  predicate OccursAt(s: string, pat: string, i: int) {
    0 <= i && i + |pat| <= |s| && s[i..i + |pat|] == pat
  }

  /** PHP `str_contains`. */
  predicate Contains(s: string, pat: string) {
    exists i :: 0 <= i <= |s| && OccursAt(s, pat, i)
  }

  /** First occurrence of `pat` in `s` at or after `from`. */
  function FindFrom(s: string, pat: string, from: nat): (r: Option<nat>)
    decreases |s| - from
    ensures r.Some? ==> from <= r.value && OccursAt(s, pat, r.value)
    ensures r.Some? ==> forall j :: from <= j < r.value ==> !OccursAt(s, pat, j)
    ensures r.None? ==> forall j :: from <= j ==> !OccursAt(s, pat, j)
  {
    if from + |pat| > |s| then None
    else if s[from..from + |pat|] == pat then Some(from)
    else FindFrom(s, pat, from + 1)
  }

  /** PHP `strpos(s, pat)`: the first occurrence, or none. */
  function Find(s: string, pat: string): (r: Option<nat>)
    ensures r.None? <==> !Contains(s, pat)
    ensures r.Some? ==> OccursAt(s, pat, r.value)
    ensures r.Some? ==> forall j :: 0 <= j < r.value ==> !OccursAt(s, pat, j)
  {
    FindFrom(s, pat, 0)
  }

  /** Shifting an occurrence by one character. */
  lemma ContainsTail(s: string, pat: string)
    requires |s| > 0
    ensures Contains(s[1..], pat) ==> Contains(s, pat)
    ensures Contains(s, pat) && !OccursAt(s, pat, 0) ==> Contains(s[1..], pat)
  {
    if Contains(s[1..], pat) {
      var j :| 0 <= j <= |s[1..]| && OccursAt(s[1..], pat, j);
      assert j + 1 + |pat| <= |s|;
      assert s[1..][j..j + |pat|] == s[j + 1..j + 1 + |pat|];
      assert OccursAt(s, pat, j + 1);
    }
    if Contains(s, pat) && !OccursAt(s, pat, 0) {
      var j :| 0 <= j <= |s| && OccursAt(s, pat, j);
      assert j != 0;
      assert s[1..][j - 1..j - 1 + |pat|] == s[j..j + |pat|];
      assert OccursAt(s[1..], pat, j - 1);
    }
  }

  /** PHP `implode(sep, parts)`. */
  function Join(parts: seq<string>, sep: string): string {
    if |parts| == 0 then ""
    else if |parts| == 1 then parts[0]
    else parts[0] + sep + Join(parts[1..], sep)
  }

  /** The pieces of `explode`'s recursive step: the text before the first
      separator, then the pieces of the text after it. */
  lemma SplitCons(s: string, sep: string, i: nat, rest: seq<string>)
    requires |sep| > 0 && OccursAt(s, sep, i) && !Contains(s[..i], sep)
    requires |rest| >= 1 && Join(rest, sep) == s[i + |sep|..]
    requires forall k :: 0 <= k < |rest| ==> !Contains(rest[k], sep) && |rest[k]| <= |s| - i - |sep|
    ensures var parts := [s[..i]] + rest;
      && |parts| >= 2
      && Join(parts, sep) == s
      && (forall k :: 0 <= k < |parts| ==> !Contains(parts[k], sep))
      && Contains(s, sep)
      && (forall k :: 0 <= k < |parts| ==> |parts[k]| < |s|)
  {
    var parts := [s[..i]] + rest;
    assert parts[1..] == rest;
    assert s == s[..i] + sep + s[i + |sep|..];
    forall k | 0 <= k < |parts|
      ensures !Contains(parts[k], sep) && |parts[k]| < |s|
    {
      if k > 0 {
        assert parts[k] == rest[k - 1];
      }
    }
  }

  /** The text before the first occurrence of a separator holds none. */
  lemma PrefixBeforeFirst(s: string, sep: string, i: nat)
    requires |sep| > 0 && i <= |s|
    requires forall j :: 0 <= j < i ==> !OccursAt(s, sep, j)
    ensures !Contains(s[..i], sep)
  {
    forall j | OccursAt(s[..i], sep, j)
      ensures false
    {
      assert s[..i][j..j + |sep|] == s[j..j + |sep|];
      assert OccursAt(s, sep, j);
    }
  }

  /** PHP `explode(sep, s)`: the maximal pieces between left-to-right,
      non-overlapping occurrences of `sep`. Joining them back gives `s`,
      no piece holds the separator, and there is exactly one piece iff the
      separator does not occur. */
  function Split(s: string, sep: string): (parts: seq<string>)
    requires |sep| > 0
    decreases |s|
    ensures |parts| >= 1
    ensures Join(parts, sep) == s
    ensures forall k :: 0 <= k < |parts| ==> !Contains(parts[k], sep)
    ensures |parts| == 1 <==> !Contains(s, sep)
    ensures forall k :: 0 <= k < |parts| ==> |parts[k]| <= |s|
    ensures |parts| >= 2 ==> forall k :: 0 <= k < |parts| ==> |parts[k]| < |s|
  {
    match Find(s, sep)
    case None => [s]
    case Some(i) =>
      PrefixBeforeFirst(s, sep, i);
      var rest := Split(s[i + |sep|..], sep);
      SplitCons(s, sep, i, rest);
      [s[..i]] + rest
  }

  /** PHP `str_replace(pat, "", s)`: deletes every left-to-right,
      non-overlapping occurrence of `pat` (an empty `pat` changes nothing). */
  function RemoveAll(s: string, pat: string): (r: string)
    decreases |s|
    ensures |r| <= |s|
    ensures |pat| > 0 && Contains(s, pat) ==> |r| < |s|
    ensures !Contains(s, pat) ==> r == s
  {
    if |pat| == 0 || |s| == 0 then s
    else if pat <= s then
      assert OccursAt(s, pat, 0);
      RemoveAll(s[|pat|..], pat)
    else
      ContainsTail(s, pat);
      [s[0]] + RemoveAll(s[1..], pat)
  }

  /** The characters of the regex class `[a-zA-Z0-9_]`, which is also what
      PCRE's `\w` matches outside UTF mode. */
  predicate IsWordChar(c: char) {
    ('a' <= c <= 'z') || ('A' <= c <= 'Z') || ('0' <= c <= '9') || c == '_'
  }

  /** PHP's default `trim` character set: space, tab, line feed, carriage
      return, NUL and vertical tab. */
  const Whitespace: set<char> := {' ', '\t', '\n', '\r', '\U{0000}', '\U{000B}'}

  /** PHP `ltrim(s, cs)`: drops the longest prefix made of `cs`. */
  function TrimLeft(s: string, cs: set<char>): (r: string)
    ensures |r| <= |s| && r == s[|s| - |r|..]
    ensures |r| > 0 ==> r[0] !in cs
    ensures forall i :: 0 <= i < |s| - |r| ==> s[i] in cs
  {
    if |s| > 0 && s[0] in cs then TrimLeft(s[1..], cs) else s
  }

  /** PHP `rtrim(s, cs)`: drops the longest suffix made of `cs`. */
  function TrimRight(s: string, cs: set<char>): (r: string)
    ensures |r| <= |s| && r == s[..|r|]
    ensures |r| > 0 ==> r[|r| - 1] !in cs
    ensures forall i :: |r| <= i < |s| ==> s[i] in cs
  {
    if |s| > 0 && s[|s| - 1] in cs then TrimRight(s[..|s| - 1], cs) else s
  }

  /** PHP `trim(s)`. */
  function Trim(s: string): (r: string)
    ensures |r| > 0 ==> r[0] !in Whitespace && r[|r| - 1] !in Whitespace
  {
    TrimRight(TrimLeft(s, Whitespace), Whitespace)
  }

  /** PHP truthiness of a nullable string: null, "" and "0" are false. */
  predicate Truthy(s: Option<string>) {
    s.Some? && s.value != "" && s.value != "0"
  }

  /** Decimal rendering of an integer, as PHP interpolates it. */
  function IntToString(i: int): string {
    if i < 0 then "-" + NatToString(-i) else NatToString(i)
  }

  function NatToString(n: nat): string {
    if n < 10 then [Digit(n)] else NatToString(n / 10) + [Digit(n % 10)]
  }

  function Digit(d: nat): char
    requires d < 10
  {
    "0123456789"[d]
  }

  /** `a` is obtained from `b` by deleting elements. */
  ghost predicate IsSubseq<T>(a: seq<T>, b: seq<T>)
    decreases |b|
  {
    |a| == 0 || (|b| > 0 && ((a[0] == b[0] && IsSubseq(a[1..], b[1..])) || IsSubseq(a, b[1..])))
  }

  lemma {:induction false} SubseqLength<T>(a: seq<T>, b: seq<T>)
    requires IsSubseq(a, b)
    ensures |a| <= |b|
    decreases |b|
  {
    if |a| > 0 {
      if a[0] == b[0] && IsSubseq(a[1..], b[1..]) {
        SubseqLength(a[1..], b[1..]);
      } else {
        SubseqLength(a, b[1..]);
      }
    }
  }

  lemma {:induction false} SubseqTransitive<T>(a: seq<T>, b: seq<T>, c: seq<T>)
    requires IsSubseq(a, b) && IsSubseq(b, c)
    ensures IsSubseq(a, c)
    decreases |c|
  {
    if |a| > 0 {
      SubseqLength(b, c);
      if IsSubseq(b, c[1..]) {
        SubseqTransitive(a, b, c[1..]);
      } else {
        assert b[0] == c[0] && IsSubseq(b[1..], c[1..]);
        if a[0] == b[0] && IsSubseq(a[1..], b[1..]) {
          SubseqTransitive(a[1..], b[1..], c[1..]);
        } else {
          SubseqTransitive(a, b[1..], c[1..]);
        }
      }
    }
  }

  /** Deleting one contiguous block `s[i..j]` yields a subsequence. */
  lemma {:induction false} DeleteBlock<T>(s: seq<T>, i: nat, j: nat)
    requires i <= j <= |s|
    ensures IsSubseq(s[..i] + s[j..], s)
    decreases |s|
  {
    var a := s[..i] + s[j..];
    if |a| > 0 {
      if i > 0 {
        DeleteBlock(s[1..], i - 1, j - 1);
        assert a[1..] == s[1..][..i - 1] + s[1..][j - 1..];
      } else if j > 0 {
        DeleteBlock(s[1..], 0, j - 1);
        assert a == s[1..][..0] + s[1..][j - 1..];
      } else {
        DeleteBlock(s[1..], 0, 0);
        assert a[1..] == s[1..][..0] + s[1..][0..];
      }
    }
  }

  lemma SubseqCons<T>(c: T, a: seq<T>, b: seq<T>)
    requires IsSubseq(a, b)
    ensures IsSubseq([c] + a, [c] + b)
    ensures IsSubseq(a, [c] + b)
  {
    assert ([c] + a)[1..] == a;
    assert ([c] + b)[1..] == b;
  }

  /** A filter by `p` keeps each element as often as it occurs when `p`
      holds of it, and never otherwise; one more element keeps that so. */
  lemma FilterCountSnoc<T>(a: seq<T>, b: seq<T>, x: T, p: T -> bool)
    requires forall y :: multiset(a)[y] == if p(y) then multiset(b)[y] else 0
    ensures forall y :: multiset(a + (if p(x) then [x] else []))[y] == if p(y) then multiset(b + [x])[y] else 0
  {
    var tail := if p(x) then [x] else [];
    assert multiset(a + tail) == multiset(a) + multiset(tail);
    assert multiset(b + [x]) == multiset(b) + multiset{x};
  }

  /** Appending an element to the whole keeps a subsequence a subsequence,
      with or without that element appended to it too. */
  lemma {:induction false} SubseqSnoc<T>(a: seq<T>, b: seq<T>, x: T, keep: bool)
    requires IsSubseq(a, b)
    ensures IsSubseq(a + (if keep then [x] else []), b + [x])
    decreases |b|
  {
    if |b| == 0 {
      assert a == [];
      if keep {
        assert IsSubseq([x], [x]) by {
          assert [x][1..] == [];
          assert IsSubseq<T>([], []);
        }
      } else {
        assert IsSubseq<T>([], [x]);
      }
      assert b + [x] == [x];
    } else if |a| > 0 && a[0] == b[0] && IsSubseq(a[1..], b[1..]) {
      SubseqSnoc(a[1..], b[1..], x, keep);
      assert (a + (if keep then [x] else []))[1..] == a[1..] + (if keep then [x] else []);
      assert (b + [x])[1..] == b[1..] + [x];
    } else {
      assert IsSubseq(a, b[1..]);
      SubseqSnoc(a, b[1..], x, keep);
      assert (b + [x])[1..] == b[1..] + [x];
    }
  }

  /** A contiguous slice is a subsequence. */
  lemma SliceSubseq<T>(s: seq<T>, i: nat, j: nat)
    requires i <= j <= |s|
    ensures IsSubseq(s[i..j], s)
  {
    var tail := s[i..];
    DeleteBlock(s, 0, i);
    assert s[..0] + s[i..] == tail;
    DeleteBlock(tail, j - i, |tail|);
    assert tail[..j - i] + tail[|tail|..] == s[i..j];
    SubseqTransitive(s[i..j], tail, s);
  }

  /** A slice of a slice is a slice of the original. */
  lemma SliceOfSlice<T>(s: seq<T>, a: nat, b: nat, c: nat, d: nat)
    requires a <= b <= |s| && c <= d <= b - a
    ensures s[a..b][c..d] == s[a + c..a + d]
  {
    forall j | 0 <= j < d - c
      ensures s[a..b][c..d][j] == s[a + c..a + d][j]
    {
      assert s[a..b][c..d][j] == s[a..b][c + j] == s[a + c + j];
    }
  }

  /** An occurrence inside a slice is an occurrence in the whole. */
  lemma ContainsSlice(s: string, a: nat, b: nat, pat: string)
    requires a <= b <= |s| && Contains(s[a..b], pat)
    ensures Contains(s, pat)
  {
    var j :| 0 <= j <= b - a && OccursAt(s[a..b], pat, j);
    SliceOfSlice(s, a, b, j, j + |pat|);
    assert OccursAt(s, pat, a + j);
  }

  /** `explode` never creates an occurrence: the pieces of a text free of
      `pat` are free of `pat`. */
  lemma {:induction false} SplitFree(s: string, sep: string, pat: string)
    requires |sep| > 0 && !Contains(s, pat)
    decreases |s|
    ensures forall k :: 0 <= k < |Split(s, sep)| ==> !Contains(Split(s, sep)[k], pat)
  {
    match Find(s, sep)
    case None =>
    case Some(i) =>
      SliceFree(s, 0, i, pat);
      SliceFree(s, i + |sep|, |s|, pat);
      assert s[0..i] == s[..i] && s[i + |sep|..|s|] == s[i + |sep|..];
      SplitFree(s[i + |sep|..], sep, pat);
      ConsFree(s[..i], Split(s[i + |sep|..], sep), pat);
  }

  lemma ConsFree(head: string, tail: seq<string>, pat: string)
    requires !Contains(head, pat) && forall k :: 0 <= k < |tail| ==> !Contains(tail[k], pat)
    ensures forall k :: 0 <= k < |[head] + tail| ==> !Contains(([head] + tail)[k], pat)
  {
    forall k | 0 < k < |[head] + tail|
      ensures ([head] + tail)[k] == tail[k - 1]
    {
    }
  }

  /** A slice of a text free of `pat` is free of `pat`. */
  lemma SliceFree(s: string, a: nat, b: nat, pat: string)
    requires a <= b <= |s| && !Contains(s, pat)
    ensures !Contains(s[a..b], pat)
  {
    if Contains(s[a..b], pat) {
      ContainsSlice(s, a, b, pat);
    }
  }

  /** A text without the first character of `pat` does not contain it. */
  lemma AbsentFirst(s: string, pat: string)
    requires |pat| > 0 && forall j :: 0 <= j < |s| ==> s[j] != pat[0]
    ensures !Contains(s, pat)
  {
    forall i | 0 <= i <= |s|
      ensures !OccursAt(s, pat, i)
    {
      if i + |pat| <= |s| {
        assert s[i..i + |pat|][0] == s[i];
      }
    }
  }
}
